=== FILE: README.md ===
# OpenFusion client launcher: cache handler and server selector, modelled in Dafny

This project models the logic core of the OpenFusion game launcher:

- **The Python cache handler** (`cache_handler/cache_handler.py`). It classifies
  cached game files as intact or altered and counts their bytes per (version, mode)
  tally. It downloads missing or altered files with a bounded retry loop. It
  hash-checks in batches of 50 with progress messages, deletes a cache and
  prunes its empty directories deepest first, chooses where a version's cache
  lives (`swapped_path`), and builds the work list and fresh tallies from
  `hashes.json` / `versions.json` (`compile_file_list`).
- **The launcher page's server selector**, in three revisions
  (`assets/js/server-selector.js`, `assets/js/serverselector.js`,
  `resources/app/files/assets/js/serverselector.js`):
  - add, edit and delete on the server list;
  - `getAppVersion`;
  - the Unity cache swap (`performCacheSwap` in the newer page, an inline block
    in the older one);
  - the derivation of the files the game plugin reads (`assetInfo.php`,
    `loginInfo.php`, `rankurl.txt`, `sponsor.php`, `images.php`);
  - the `host[:port]` parsing and the DNS step.

The model is pure functions over immutable values, with three methods that
restate loops of the handler imperatively and are proved equal to their
functional definitions: `Integrity.CheckFileHashStreaming` (the chunked read
of `check_file_hash`), `Fetcher.DownloadFileLoop` (`download_file`) and
`Fetcher.RetryLoop` (its `for` loop with `break`).

- **The disk** is a finite map from paths (lists of pathlib parts) to files
  or directories. A file holds its bytes and three flags: readable,
  writable, and locked (its `unlink` raises `PermissionError`). A directory
  has a locked flag (its `rmdir` raises).
- **The tally dictionary** `size_dict[version][mode]` is flattened to a map from
  `Key(version, mode)` to `Tally(intact, altered, total)`.
- **External services are parameters.** SHA-256 is a function parameter
  (`Digest`). The HTTP GET of attempt `i` is an oracle `Network` returning a
  body or a failure (with or without a partially written file). DNS is an
  oracle from host names to an optional address.
- **Progress messages** are the list of tally snapshots sent.
- **`random.shuffle` plus `asyncio.gather`** become "the work list in some
  order, processed one file after another". The checks do interleave at the
  `await` of each read (line 47). But the counter update on line 54 contains
  no `await`, and it adds a size the coroutine computed locally. So counter
  updates never interleave, each adds a fixed amount to one counter, and the
  final tallies are those of some sequential order. The order-independence
  lemmas show they do not depend on which order.
- **The page's cache root** is a set of directory names plus the optional text
  of `.lastver`. A rename throws when its source is missing or its destination
  exists.

Modules follow the program's structure:

| Module | Models |
|---|---|
| `FileSystem` | The pathlib operations |
| `Tallies` | The size dictionary |
| `Integrity` | `check_file_hash` |
| `Fetcher` | `download_file` |
| `HashChecking` | `hash_check` |
| `Downloading` | `download` |
| `Removing` | `remove` |
| `FileList` | `swapped_path` and `compile_file_list` |
| `CacheSwap` | The page's cache swap |
| `Servers` | The list operations and `getAppVersion` |
| `GameInfo` | `setGameInfo` / `prepConnection` |
| `Strings` | JavaScript's `indexOf` and `replace`, the `^[0-9.]+$` test, and path splitting |
| `Wrappers` | `Option` / `Result` |

### Where the code differs from a cleaner reading

- **First launch with no saved target directory.** The newer
  `performCacheSwap` guards its rename with `exists(newCache) || !skip`. On
  that first launch, `skip` is false, so the rename of the missing directory
  is attempted and throws, and `.lastver` is never written. The caller
  catches the error and the launch goes on. A cleaner reading ("nothing to
  swap, just record the version") is not what the code does, and
  `SwapMissingTargetThrows` states the code's behaviour.
- **Retry limit.** The handler's retry loop is bounded by `retries` (default
  5). It gives up silently: one message is sent, and no failure is reported.
- **A refused removal ends `remove`.** Nothing in `remove` catches an
  exception. A listed file whose `unlink` is refused stops the first loop,
  so no message is sent and no directory is pruned. A refused `rmdir`
  stops the pruning loop part way. `RemoveRaises` states when this happens.
- **No stale-directory cleanup.** Nothing removes a stale cache directory
  before swapping.

## Model

| member | source | states |
|---|---|---|
| Integrity.CheckFileHash | cache_handler/cache_handler.py:39-58 | the verdict is "intact" iff the file opens and its digest equals the stored hash; an unreadable file or a missing tally changes nothing; otherwise exactly one counter grows by the file's byte count and the total is unchanged |
| Integrity.CheckFileHashStreaming | cache_handler/cache_handler.py:44-54 | reading in chunks of at most BUF_SIZE = 65536 bytes until an empty read feeds exactly the file's bytes to the digest and counts exactly its length; the outcome equals the one-shot check |
| Integrity.ReadAt | cache_handler/cache_handler.py:47-49 | one `read(BUF_SIZE)` returns at most 65536 bytes, the next ones of the file, and is empty only at the end |
| Integrity.CheckFileHashGrows | cache_handler/cache_handler.py:54 | a check never lowers a counter, never changes a total and never adds or removes a key |
| Integrity.CheckFileHashCommutes | cache_handler/cache_handler.py:54 | two checks update the tallies the same way in either order |
| Integrity.CheckAllGrows | cache_handler/cache_handler.py:54 | checking a list of files never lowers a counter, never changes a total and never adds or removes a key |
| Integrity.CheckAllOrderIndependent | cache_handler/cache_handler.py:84-88 | checking any permutation of the same list ends with the same tallies |
| Integrity.CheckAllAppend | cache_handler/cache_handler.py:87-88 | checking a list in two consecutive parts is checking it whole |
| Fetcher.Attempt | cache_handler/cache_handler.py:67-75 | one GET attempt changes at most the file's own path; it raises iff there is no full body or the file cannot be opened for writing; when it does not raise the file holds exactly the body |
| Fetcher.DownloadFile | cache_handler/cache_handler.py:61-80 | an intact file costs no GET, no sleep and no write; otherwise there are at most `retries` GETs, at least one when retries > 0, each followed by a re-check; no re-check before the last passes; stopping early means the last passed; sleeps are strictly increasing, within 1..gets; exactly one message; only the file's path changes; counters only grow |
| Fetcher.Refetch | cache_handler/cache_handler.py:66-80 | the retry branch after a failed first check: the same bounds, stop rule, sleeps, single message and frame |
| Fetcher.RetryFromStops | cache_handler/cache_handler.py:66-78 | the loop makes at most `retries - i` attempts, stops at the first passing re-check, and its last verdict is whether the file is then intact |
| Fetcher.RetryFromSleeps | cache_handler/cache_handler.py:66-78 | the sleeps of the loop from attempt i strictly increase and each lies within i + 1 .. i + the number of attempts |
| Fetcher.RetryFromSleepsFollowRaises | cache_handler/cache_handler.py:74-75 | the loop sleeps j + 1 seconds exactly after the attempts j that raised, and at no other time |
| Fetcher.RetryFromRaised | cache_handler/cache_handler.py:67-75 | attempt j raises exactly when the server gives no full body for it or the file cannot be opened for writing on the disk the loop started from |
| Fetcher.RefetchRaises | cache_handler/cache_handler.py:66-78 | in the retry branch there is one raise flag per GET; each is set exactly as the server answered; a sleep of j + 1 follows exactly the raising attempts j |
| Fetcher.DownloadFileRaises | cache_handler/cache_handler.py:61-80 | over a whole `download_file`, attempt j raises exactly when the server gives no full body or the file cannot be opened for writing, and a sleep of j + 1 seconds follows exactly the raising attempts |
| Fetcher.AttemptOnlyAt | cache_handler/cache_handler.py:67-73 | one GET attempt leaves every path but the file's own exactly as it was |
| Fetcher.Turn | cache_handler/cache_handler.py:67-78 | one turn of the loop reports "intact" exactly when the file on the disk the attempt left matches its hash |
| Fetcher.TurnRaises | cache_handler/cache_handler.py:67-75 | a turn raises exactly when the GET gives no full body or the file cannot be opened for writing, and a turn never changes whether it can be |
| Fetcher.RetryFromFrame | cache_handler/cache_handler.py:66-78 | the loop writes only the file's own path and only grows counters |
| Fetcher.RetryLoop | cache_handler/cache_handler.py:66-78 | the imperative `for` loop with `break` computes the same outcome as the recursive definition |
| Fetcher.DownloadFileLoop | cache_handler/cache_handler.py:61-80 | the imperative `download_file` computes the same outcome as its functional model |
| Fetcher.RetryFromCreditsRepair | cache_handler/cache_handler.py:77-78 | a loop that ends on a passing re-check has added the repaired file's bytes to `intact` |
| Fetcher.DownloadFileCountsBoth | cache_handler/cache_handler.py:54 | a present but altered file that the download repairs is counted twice, its old bytes as altered and its new bytes as intact, so intact + altered may exceed total |
| HashChecking.HashCheck | cache_handler/cache_handler.py:83-89 | every file is checked exactly once; there are ceil(n / 50) messages; message k is the state after the first min((k+1)*50, n) files |
| HashChecking.HashCheckShuffleInvariant | cache_handler/cache_handler.py:84-85 | any two shuffles of the same list give the same final tallies and the same number of messages |
| HashChecking.RunBatchesLast | cache_handler/cache_handler.py:87-89 | a non-empty list sends at least one message and the last one carries the final tallies; an empty list sends none |
| HashChecking.RunBatchesChecksAll | cache_handler/cache_handler.py:87-88 | the batches together check exactly the list, in order |
| HashChecking.RunBatchesMessageCount | cache_handler/cache_handler.py:87-89 | one message per batch, ceil(n / freq) in all |
| HashChecking.RunBatchesSnapshots | cache_handler/cache_handler.py:88-89 | each message is the tally state after its batch and all earlier ones |
| HashChecking.BatchCount | cache_handler/cache_handler.py:87 | `range(0, n, freq)` has ceil(n / freq) elements |
| HashChecking.CoveredIsMin | cache_handler/cache_handler.py:87-88 | the first k + 1 slices `[i:i+freq]` cover min((k+1)*freq, n) files |
| Downloading.PrepareParents | cache_handler/cache_handler.py:93-94 | `mkdir(parents=True, exist_ok=True)` of every parent succeeds iff no needed directory is blocked by a file; then every parent is a directory. On failure the loop stopped at the first blocked file, and the parents of all earlier files are directories and stay on disk. Either way old entries are unchanged and new entries are directories |
| Downloading.Download | cache_handler/cache_handler.py:92-102 | directory preparation decides failure; an aborted run leaves the directories prepared for the files before the blocked one, and nothing else new; otherwise one message and at most 5 GETs per file, and counters only grow |
| Downloading.FetchAll | cache_handler/cache_handler.py:99-102 | one message per file, the last equal to the final tallies, at most 5 GETs each, counters only grow |
| Downloading.FetchAllKeepsIntact | cache_handler/cache_handler.py:62-64 | a path whose listed files are all intact is neither fetched nor written |
| Downloading.DownloadFileKeepsIntact | cache_handler/cache_handler.py:61-64 | one `download_file` leaves a path alone when it is another file's or its own file is intact, and an intact file costs no GET |
| Downloading.DownloadLeavesIntactAlone | cache_handler/cache_handler.py:92-102 | in a whole download, an already intact file costs no GET and keeps its bytes, whatever the shuffle |
| Downloading.DownloadFrame | cache_handler/cache_handler.py:92-102 | a path no listed file names keeps its content; anything new is a directory |
| Removing.UnlinkFiles | cache_handler/cache_handler.py:107-111 | the first loop only removes entries; whatever remains is unchanged |
| Removing.UnlinkFilesRaises | cache_handler/cache_handler.py:110-111 | the first loop raises exactly when some listed path is a regular file whose `unlink` is refused |
| Removing.UnlinkFilesRoots | cache_handler/cache_handler.py:106-109 | the remembered roots are listed files' parents that are directories; all of them when the loop runs to the end |
| Removing.UnlinkFilesRemoves | cache_handler/cache_handler.py:107-111 | only listed regular files disappear; when the loop does not raise, all of them do |
| Removing.UnlinkFilesClears | cache_handler/cache_handler.py:107-111 | when the loop does not raise no listed path is a regular file afterwards; every remembered root is still a directory |
| Removing.UnlinkFilesWellFormed | cache_handler/cache_handler.py:107-111 | unlinking files keeps the tree well formed |
| Removing.SortDeepestFirst | cache_handler/cache_handler.py:115 | the depth sort holds exactly the roots it was given |
| Removing.SortDeepestFirstCorrect | cache_handler/cache_handler.py:115 | the depth sort lists every root once, deepest first |
| Removing.PruneDirs | cache_handler/cache_handler.py:116-118 | the pruning loop only removes entries, and each one it removes is a listed root that was a directory whose `rmdir` is allowed |
| Removing.PruneDirsSucceeds | cache_handler/cache_handler.py:116-118 | with distinct existing roots, the loop raises only if some root's `rmdir` is refused |
| Removing.PruneDirsLeavesNoEmptyRoot | cache_handler/cache_handler.py:115-118 | visiting deepest first, every root that remains has an entry, and a root empty at its turn is removed |
| Removing.PruneDirsWellFormed | cache_handler/cache_handler.py:116-118 | removing only empty directories keeps the tree well formed, whether or not the loop raises |
| Removing.Remove | cache_handler/cache_handler.py:105-118 | the one message, carrying the unchanged tallies, is sent exactly when no listed file refuses its `unlink`; without it the call has raised |
| Removing.RemoveRaises | cache_handler/cache_handler.py:105-118 | the deletion raises only when a listed file or a remembered directory refuses removal; with none refusing it does not raise and sends its one message |
| Removing.RemoveOutcome | cache_handler/cache_handler.py:105-118 | only listed files and remembered directories vanish and nothing else changes; when the call does not raise, no listed path is a file and every remaining root is non-empty |
| Removing.RemoveWellFormed | cache_handler/cache_handler.py:105-118 | the deletion keeps the tree well formed, whether or not it raises |
| FileList.SwappedPath | cache_handler/cache_handler.py:137-148 | the result is `<root>/FusionFall` exactly when the version's own directory is missing, the live one exists and `.lastver` equals the version; otherwise `<root>/<version>` |
| FileList.SwapThenSwappedPathIsLive | cache_handler/cache_handler.py:137-148 | after the page swapped a version in without error, the handler looks for its files in the live directory |
| FileList.Normalise | cache_handler/cache_handler.py:158-167 | existing entries stay as they were, in order; every `versions.json` name is present afterwards; only absent names are added, as empty placeholders; `updated` iff something was added |
| FileList.NormaliseUpdated | cache_handler/cache_handler.py:158-171 | `hashes.json` is rewritten iff some `versions.json` name was missing; every existing (name, manifest) pair survives |
| FileList.NormaliseUnique | cache_handler/cache_handler.py:159-166 | the placeholders never duplicate a name |
| FileList.CompileFileList | cache_handler/cache_handler.py:151-202 | the call raises iff one version was asked for and the normalised manifest lacks it; the manifest is normalised either way |
| FileList.CompileAllVersions | cache_handler/cache_handler.py:173-174 | with `all` nothing raises and every `versions.json` name is selected |
| FileList.CompileFileListSizes | cache_handler/cache_handler.py:183-190 | exactly the selected (version, mode) tallies are reset to zero counts and that mode's size; other tallies are kept |
| FileList.CompileFileListSound | cache_handler/cache_handler.py:178-200 | every entry belongs to a selected version and mode, comes from one manifest line, and its tally exists |
| FileList.CompileFileListComplete | cache_handler/cache_handler.py:178-200 | every manifest line of every selected version and mode has its entry; the list is exactly those blocks concatenated in loop order, one entry per manifest line |
| FileList.Gather | cache_handler/cache_handler.py:178-189 | the version loop raises exactly when some selected version is missing from the manifest |
| FileList.GatherModes | cache_handler/cache_handler.py:179-200 | the mode loop keeps every earlier tally, gives each of its modes a tally and never shortens the list |
| FileList.GatherModesFiles | cache_handler/cache_handler.py:179-200 | the mode loop appends exactly the blocks of its modes, in order |
| FileList.GatherFiles | cache_handler/cache_handler.py:178-200 | the version loop appends exactly the blocks of each selected version, in order |
| FileList.VersionBlocksLength | cache_handler/cache_handler.py:192-200 | the blocks hold one entry per manifest line of the selected versions and modes |
| FileList.Info | cache_handler/cache_handler.py:193-199 | an entry carries its version, mode and hash; its URL joins CDN root, version and relative path with "/"; its local path lies under the version's cache directory and, for a path without empty segments, rejoins to the relative path |
| FileList.InfoUrl | cache_handler/cache_handler.py:193-198 | an entry's URL is the CDN root, the version and the relative path joined by "/"; its hash is the manifest's |
| FileList.Url | cache_handler/cache_handler.py:196 | `'/'.join([cdn, version, rel])` is `cdn + "/" + version + "/" + rel` |
| CacheSwap.PerformCacheSwap | assets/js/server-selector.js:175-217 | at most two renames, each into or out of the live directory; no directory is lost or created; `.lastver` names the target iff nothing threw, and keeps its text otherwise |
| CacheSwap.OldSwapBlock | assets/js/serverselector.js:167-197 | at most two renames, each into or out of the live directory; no directory is lost or created; when enabled `.lastver` names the target iff nothing threw |
| CacheSwap.Rename | assets/js/server-selector.js:191-194 | a rename succeeds iff the source exists and the destination does not; it keeps the number of directories |
| CacheSwap.SwapNoOp | assets/js/server-selector.js:184-199 | with the live directory present, `.lastver` equal to the target and no target directory, no rename runs and the state is unchanged |
| CacheSwap.SwapDifferentRecorded | assets/js/server-selector.js:186-212 | with a different version recorded, the first rename moves the live directory to that name; when unblocked, the target then moves in and `.lastver` names it |
| CacheSwap.SwapMissingTargetThrows | assets/js/server-selector.js:209-216 | outside the skip case, a target without a directory makes the swap throw with `.lastver` unchanged; on a first launch nothing changes at all |
| CacheSwap.SwapOutcome | assets/js/server-selector.js:175-217 | no directory is lost or created; a swap that does not throw leaves the live directory present, the target without its own directory and `.lastver` naming it |
| CacheSwap.SwapIdempotent | assets/js/server-selector.js:181-199 | a second swap to the same version after a successful one renames nothing and changes nothing |
| CacheSwap.OldSwapGate | assets/js/serverselector.js:167 | with cache swapping off, nothing is renamed or recorded |
| CacheSwap.OldSwapRenames | assets/js/serverselector.js:175-196 | a live directory with a record is always renamed out first; the target moves in iff its directory exists; `.lastver` is written iff nothing threw |
| CacheSwap.OldSwapRelaunch | assets/js/serverselector.js:175-196 | relaunching the recorded version renames the live directory out and straight back, leaving the directories as they were |
| Servers.AddServer | assets/js/server-selector.js:45-63 | exactly one record is appended, earlier ones are unchanged, and empty inputs become "My OpenFusion Server" / "127.0.0.1:23000" |
| Servers.AddServerEarliest | resources/app/files/assets/js/serverselector.js:22-32 | exactly one record is appended with the raw inputs; earlier ones are unchanged |
| Servers.EditServer | assets/js/server-selector.js:72-90 | length and order are kept; only records with the selected uuid change; empty inputs keep old values; the version is always overwritten |
| Servers.Edited | assets/js/server-selector.js:77-88 | an edit keeps uuid and endpoint, always sets the version, and replaces description and ip only by non-empty inputs |
| Servers.EditServerIdempotent | assets/js/serverselector.js:55-73 | applying the same edit twice equals applying it once |
| Servers.DeleteServer | assets/js/server-selector.js:99-109 | a non-empty list loses exactly one record; an empty list stays empty |
| Servers.DeleteServerRemoves | assets/js/server-selector.js:103-109 | the removed record is the first with the uuid; without a match `splice(-1, 1)` removes the last record |
| Servers.IndexOfUuid | assets/js/server-selector.js:103-107 | the index is -1 or names a record with the uuid |
| Servers.IndexOfUuidFirst | assets/js/server-selector.js:103-107 | the index found is the first record with the uuid, and -1 exactly when no record has it |
| Servers.DeleteUndoesAdd | resources/app/files/assets/js/serverselector.js:22-44 | deleting a just-added record with a fresh uuid restores the list, for both add variants |
| Servers.DeleteMissingDropsLast | assets/js/serverselector.js:86-92 | deleting by an unknown uuid removes the last record |
| Servers.GetAppVersion | assets/js/server-selector.js:28-38 | a trailing ".0" is dropped and the result plus ".0" is the input; any other version is returned unchanged |
| Servers.GetAppVersionRoundTrip | assets/js/server-selector.js:31-37 | appending ".0" and simplifying gives the version back; a version not ending in '0' is a fixed point |
| GameInfo.EndpointFiles | assets/js/serverselector.js:202-227 | with an endpoint, `rankurl.txt`/`sponsor.php`/`images.php` are its http form plus "getranks"/"upsell/sponsor.png"/"upsell/"; without one they are reset only if `rankurl.txt` existed, and it is deleted; other files are untouched |
| GameInfo.EndpointFilesIdempotent | resources/app/files/assets/js/serverselector.js:103-116 | deriving the endpoint files twice for the same server equals once |
| GameInfo.HttpEndpoint | assets/js/server-selector.js:243 | an "https://" prefix becomes "http://"; the result is one character shorter exactly when "https://" occurs |
| GameInfo.HttpEndpointRewrite | assets/js/server-selector.js:243 | an "https://" prefix becomes "http://"; an endpoint without "https://" is kept |
| GameInfo.SplitAddress | assets/js/server-selector.js:270-279 | with a ':' the host (which has no ':') and port rejoin to the ip; without one the host is the ip and the port is 23000 |
| GameInfo.SplitAddressRoundTrip | assets/js/serverselector.js:229-239 | splitting `host + ":" + port` for a host without ':' gives back both parts |
| GameInfo.Resolve | assets/js/server-selector.js:281-295 | the address used is the host itself or what the lookup returned; a numeric host is kept; a failed lookup keeps the host |
| GameInfo.ResolveNumericIgnoresDns | assets/js/server-selector.js:282-294 | a host of digits and dots never reaches DNS: every resolver gives the host back |
| GameInfo.ResolveUsesDns | assets/js/server-selector.js:282-286 | any other host whose lookup succeeds is replaced by the looked-up address |
| GameInfo.LoginInfo | assets/js/server-selector.js:298-301 | for a numeric host the written address is the ip itself, or the ip plus ":23000" when it has no port |
| GameInfo.FindFirst | assets/js/server-selector.js:221-226 | `array.filter(pred)[0]` is the first element the predicate accepts, absent iff it accepts none |
| GameInfo.FindServer | assets/js/server-selector.js:221-223 | `filter(...)[0]` is the first record with the uuid, absent iff none has it |
| GameInfo.FindServerIsIndexOf | assets/js/server-selector.js:103-107 | `filter(...)[0]` and `indexOf` pick the same record |
| GameInfo.FindVersion | assets/js/server-selector.js:224-226 | `filter(...)[0]` is the first version with the name, absent iff none has it |
| GameInfo.Select | assets/js/server-selector.js:221-226 | a selection pairs the first listed server with the uuid and the first listed version of that server's version name, as `filter(...)[0]` does; an unknown uuid or an unknown version name selects nothing |
| GameInfo.SetGameInfo | assets/js/server-selector.js:220-303 | the newer page launches iff both lookups succeed; a failed lookup changes nothing; without swapping the cache is untouched; a launch writes `assetInfo.php` and `loginInfo.php` and leaves every file other than those and the three endpoint files as it was |
| GameInfo.SetGameInfoOld | assets/js/serverselector.js:159-263 | the older page launches only when both lookups succeed; a launch that stops leaves every file beside the page and `.lastver` as they were; without swapping the cache is untouched; a launch leaves every file other than the two it writes and the three endpoint files as it was |
| GameInfo.SetGameInfoEarliest | resources/app/files/assets/js/serverselector.js:95-116 | the earliest page never touches the cache, launches iff both lookups succeed, otherwise writes nothing, and leaves every file other than the two it writes and the three endpoint files as it was |
| GameInfo.LookupFailureChangesNothing | assets/js/server-selector.js:220-239 | an unknown uuid or version aborts every revision before anything is written or swapped |
| GameInfo.SetGameInfoLaunches | assets/js/server-selector.js:228-303 | the newer page catches swap errors and always launches; the cache is what `performCacheSwap` left (untouched without swapping), and the files are exactly the endpoint files of the server plus the version's url in `assetInfo.php` and the parsed, resolved address in `loginInfo.php` |
| GameInfo.SetGameInfoOldAborts | assets/js/serverselector.js:167-201 | in the older page a throwing rename stops the launch with no file written and `.lastver` unchanged; the directories keep what the inline swap did before it threw |
| GameInfo.OldAndNewAgreeOnFiles | assets/js/serverselector.js:167-263 | when the older swap does not throw, the older page launches with the cache its swap left and writes the same files as the newer page |
| GameInfo.SetGameInfoEarliestVerbatim | resources/app/files/assets/js/serverselector.js:95-116 | the earliest page writes the version url and the raw ip string, with no swap, and its files are exactly the endpoint files of the server plus those two |
| GameInfo.EndpointFilesUpdate | assets/js/server-selector.js:241-266 | writing `assetInfo.php` before the endpoint files gives the same files as writing it after |
| FileSystem.Write | cache_handler/cache_handler.py:71-73 | a write leaves exactly the data at the path, keeps the file's permissions and changes no other path |
| FileSystem.Unlink | cache_handler/cache_handler.py:110-111 | `unlink` removes exactly the file's path and changes nothing else |
| FileSystem.Rmdir | cache_handler/cache_handler.py:117-118 | `rmdir` of an empty directory removes exactly its path and changes nothing else |
| FileSystem.MkdirAll | cache_handler/cache_handler.py:94 | `mkdir(parents=True, exist_ok=True)` succeeds iff no prefix is a file; every prefix is then a directory and nothing else changes |
| FileSystem.MkdirAllWellFormed | cache_handler/cache_handler.py:94 | creating directories keeps the tree well formed |
| Strings.IndexOf | assets/js/server-selector.js:272 | `indexOf` gives the first occurrence, or -1 iff there is none |
| Strings.PathParts | cache_handler/cache_handler.py:197 | `local_dir / rel_path` appends the non-empty '/'-separated parts of the relative path |
| Strings.PathPartsJoin | cache_handler/cache_handler.py:197 | for a relative path without empty segments, joining its parts with '/' gives the path back |
| Strings.MatchesDigitsAndDots | assets/js/server-selector.js:282 | a host `^[0-9.]+$` accepts is non-empty and holds no ':' or '/' |
| Tallies.Credit | cache_handler/cache_handler.py:54 | adding a byte count raises exactly one counter and keeps the total |

## Left out

- I/O is not modelled: the TCP progress socket, JSON parsing and the
  write-back of `hashes.json` / `servers.json`. Messages are tally
  snapshots, the manifest is an ordered list of (name, manifest) pairs with
  unique names, and `updated` says that the file is rewritten.
- SHA-256, HTTP, DNS and `uuidv4` are parameters, not implementations. A GET
  attempt is an oracle indexed by the attempt number. Connection limits,
  timeouts, `raise_for_status` details and `asyncio.sleep` timing are not
  modelled; only the sleep lengths are recorded.
- Concurrency is not modelled. `asyncio.gather` interleavings of whole files
  are treated as some order of the work list. Partial interleavings inside
  `download_file` are not modelled, because two list entries with the same
  local path could interleave their writes.
- The order `sorted(roots, ...)` gives is one of the orders the set
  enumeration allows. Python's set order is not modelled: the roots come as a
  duplicate-free sequence.
- The DOM, jQuery UI, Electron lifecycle, plugin embedding, build tooling,
  `loadServerList`, `loadGameVersions`, `restoreDefaultServers` and the
  easter eggs are presentation or host plumbing. They are not part of this
  model.
- Windows `\\` path joining and case-insensitive names are not modelled: the
  page's `Fusionfall` and the handler's `FusionFall` are the same name
  `LIVE`. A version name is one path part. A relative path in the manifest
  is split on '/'. pathlib's handling of "." parts and of absolute
  relative paths is not modelled.
- Rename onto an existing directory is treated as failing (Windows
  semantics). POSIX rename of a directory onto an empty directory is not
  modelled.
- `.lastver` is read as text. Decoding the bytes and an unreadable record
  file are not modelled.
- argparse and the `prep_and_run_coroutine` dispatch are not modelled: the
  three modes are separate functions, and `Args` holds the parsed values. A
  missing `--playable-root` / `--offline-root` is not modelled.
- `setGameInfo` is modelled synchronously. The DNS callback's later write of
  `loginInfo.php` happens in the same step.
- `config["cache-swapping"]` is modelled as a boolean. JavaScript
  truthiness of other JSON values is not modelled.
- GameInfo.LoginInfo: the contract pins the written address only for hosts
  that skip DNS. For other hosts it follows `Resolve`, whose contract
  depends on the DNS oracle.
- POSIX permission bits and ownership are reduced to three flags per
  entry: readable, writable, and locked against removal. Only those flags
  make `open`, `unlink` and `rmdir` fail. `mkdir` refused for lack of
  permission is not modelled: `MkdirAll` fails only where a file blocks a
  needed directory.
- Fetcher.RetryFrom: the function carries no contract of its own. What it
  computes is stated by `RetryFromStops`, `RetryFromRaised`,
  `RetryFromSleeps`, `RetryFromSleepsFollowRaises` and `RetryFromFrame`.
- HashChecking.RunBatches: the function carries no contract of its own.
  `RunBatchesChecksAll`, `RunBatchesMessageCount`, `RunBatchesSnapshots`
  and `RunBatchesLast` state what it computes.
- Integrity.CheckAll: the function carries no contract of its own.
  `CheckAllGrows`, `CheckAllAppend` and `CheckAllOrderIndependent` state
  what it computes.
- Strings.ReplaceFirst is a definition: JavaScript's `replace` with a
  string pattern, which rewrites only the first occurrence. Its contract
  restates it; `GameInfo.HttpEndpoint` and `GameInfo.HttpEndpointRewrite`
  state what its one use computes.
- FileList.Block is a definition: the list comprehension of one
  (version, mode). Its contract restates it; `CompileFileListComplete`,
  `VersionBlocksLength` and `Info` state what the entries are.
- FileSystem.CanWrite is a definition: when `open(path, 'wb')` succeeds.
  `Fetcher.Attempt` and `FileSystem.Write` state what depends on it.

=== FILE: cacheswap.dfy ===
/**
 * The Unity web-player cache swap of the launcher page, in its two
 * revisions. The cache root holds one directory per saved version plus the
 * live directory the plugin reads; `.lastver` names the version whose files
 * the live directory holds.
 */
module CacheSwap {
  import opened Wrappers

  /** The live cache directory the plugin reads (`Fusionfall`; the handler spells it `FusionFall`). */
  const LIVE: string := "FusionFall"

  /** The directory names under the cache root and the text of `.lastver`, when that file exists. */
  datatype SwapState = SwapState(dirs: set<string>, record: Option<string>)

  /** One `fs.renameSync(cacheRoot\src, cacheRoot\dst)` call. */
  datatype Move = Move(src: string, dst: string)

  /** A directory rename: it throws unless the source exists and the destination does not. */
  function Rename(dirs: set<string>, m: Move): (r: Result<set<string>>)
    ensures r.Success? <==> m.src in dirs && m.dst !in dirs
    ensures r.Success? ==> r.value == dirs - {m.src} + {m.dst} && |r.value| == |dirs|
  {
    if m.src in dirs && m.dst !in dirs then Success(dirs - {m.src} + {m.dst}) else Failure(RenameFailed)
  }

  /**
   * What a swap did: the state it left (also when it threw part way), every
   * rename it attempted in order, and whether the last one threw.
   */
  datatype Swapped = Swapped(state: SwapState, moves: seq<Move>, threw: bool)

  /** The rename of the target into the live slot, then, unless it threw, the `.lastver` write. */
  function MoveIn(s: SwapState, done: seq<Move>, v: string): (r: Swapped)
    ensures r.moves == done + [Move(v, LIVE)]
    ensures r.threw <==> !(v in s.dirs && LIVE !in s.dirs)
    ensures r.threw ==> r.state == s
    ensures !r.threw ==> r.state == SwapState(s.dirs - {v} + {LIVE}, Some(v))
  {
    match Rename(s.dirs, Move(v, LIVE))
    case Failure(_) => Swapped(s, done + [Move(v, LIVE)], true)
    case Success(d) => Swapped(SwapState(d, Some(v)), done + [Move(v, LIVE)], false)
  }

  /** `performCacheSwap(v)` of the newer page, with its same-version `skip` and its `exists(newCache) || !skip` guard. */
  function PerformCacheSwap(s: SwapState, v: string): (r: Swapped)
    ensures |r.moves| <= 2 && forall m :: m in r.moves ==> m.src == LIVE || m.dst == LIVE
    ensures |r.state.dirs| == |s.dirs|
    ensures r.threw ==> r.state.record == s.record
    ensures !r.threw ==> r.state.record == Some(v)
  {
    if LIVE in s.dirs && s.record.Some? && s.record.value != v then
      var out := Move(LIVE, s.record.value);
      match Rename(s.dirs, out)
      case Failure(_) => Swapped(s, [out], true)
      case Success(d1) =>
        // `skip` stayed false, so the guard lets the rename in run
        MoveIn(SwapState(d1, s.record), [out], v)
    else
      var skip := LIVE in s.dirs && s.record == Some(v);
      if v in s.dirs || !skip then MoveIn(s, [], v)
      else Swapped(SwapState(s.dirs, Some(v)), [], false)
  }

  /** The inline swap block of the older page, run only when `config["cache-swapping"]` is truthy. */
  function OldSwapBlock(s: SwapState, v: string, enabled: bool): (r: Swapped)
    ensures |r.moves| <= 2 && forall m :: m in r.moves ==> m.src == LIVE || m.dst == LIVE
    ensures |r.state.dirs| == |s.dirs|
    ensures r.threw ==> r.state.record == s.record
    ensures !r.threw ==> r.state.record == if enabled then Some(v) else s.record
  {
    if !enabled then Swapped(s, [], false)
    else if LIVE in s.dirs && s.record.Some? then
      var out := Move(LIVE, s.record.value);
      match Rename(s.dirs, out)
      case Failure(_) => Swapped(s, [out], true)
      case Success(d1) =>
        if v in d1 then MoveIn(SwapState(d1, s.record), [out], v)
        else Swapped(SwapState(d1, Some(v)), [out], false)
    else if v in s.dirs then MoveIn(s, [], v)
    else Swapped(SwapState(s.dirs, Some(v)), [], false)
  }

  /** Relaunching the recorded version while it is live does no rename and writes back the same record. */
  lemma SwapNoOp(s: SwapState, v: string)
    requires LIVE in s.dirs && s.record == Some(v) && v !in s.dirs
    ensures var r := PerformCacheSwap(s, v); r.moves == [] && !r.threw && r.state == s
  {
  }

  /**
   * With a different version recorded, the live directory first goes back
   * under its recorded name, then the target's directory moves in; when
   * neither rename is blocked both happen and `.lastver` names the target.
   */
  lemma SwapDifferentRecorded(s: SwapState, v: string, w: string)
    requires LIVE in s.dirs && s.record == Some(w) && w != v
    ensures var r := PerformCacheSwap(s, v);
      && |r.moves| >= 1 && r.moves[0] == Move(LIVE, w)
      && (w !in s.dirs && w != LIVE && v in s.dirs && v != LIVE ==>
            && r.moves == [Move(LIVE, w), Move(v, LIVE)]
            && !r.threw
            && r.state == SwapState(s.dirs - {v} + {w}, Some(v)))
  {
    var r := PerformCacheSwap(s, v);
    if w !in s.dirs && w != LIVE && v in s.dirs && v != LIVE {
      var d1 := s.dirs - {LIVE} + {w};
      assert v in d1 && LIVE !in d1;
      assert d1 - {v} + {LIVE} == s.dirs - {v} + {w};
    }
  }

  /**
   * The `||` guard: whenever `skip` is false a rename of the target's
   * directory is attempted, so a target without a saved directory throws
   * and `.lastver` keeps its old text; on a first launch nothing changes.
   */
  lemma SwapMissingTargetThrows(s: SwapState, v: string)
    requires v !in s.dirs && v != LIVE
    requires !(LIVE in s.dirs && s.record == Some(v))
    ensures var r := PerformCacheSwap(s, v);
      && r.threw && r.state.record == s.record
    ensures LIVE !in s.dirs ==> PerformCacheSwap(s, v) == Swapped(s, [Move(v, LIVE)], true)
  {
  }

  /**
   * A swap that does not throw leaves the live directory in place, the
   * target without a directory of its own and `.lastver` naming it; no
   * directory is lost or created. A throwing swap leaves `.lastver` alone.
   */
  lemma SwapOutcome(s: SwapState, v: string)
    requires v != LIVE
    ensures var r := PerformCacheSwap(s, v);
      && |r.state.dirs| == |s.dirs|
      && (r.threw ==> r.state.record == s.record)
      && (!r.threw ==> LIVE in r.state.dirs && v !in r.state.dirs && r.state.record == Some(v))
  {
  }

  /** A second swap to the same version right after a successful one renames nothing and changes nothing. */
  lemma SwapIdempotent(s: SwapState, v: string)
    requires v != LIVE
    requires !PerformCacheSwap(s, v).threw
    ensures var t := PerformCacheSwap(s, v).state;
      && PerformCacheSwap(t, v) == Swapped(t, [], false)
  {
    SwapOutcome(s, v);
  }

  /** With cache swapping switched off the older block touches neither directories nor record. */
  lemma OldSwapGate(s: SwapState, v: string)
    ensures OldSwapBlock(s, v, false) == Swapped(s, [], false)
  {
  }

  /**
   * The older block always renames a live directory out under its recorded
   * name (no same-version shortcut), renames the target in only when its
   * directory then exists, and names the target in `.lastver` when nothing
   * threw.
   */
  lemma OldSwapRenames(s: SwapState, v: string)
    ensures var r := OldSwapBlock(s, v, true);
      && (LIVE in s.dirs && s.record.Some? ==> |r.moves| >= 1 && r.moves[0] == Move(LIVE, s.record.value))
      && (!(LIVE in s.dirs && s.record.Some?) ==> (Move(v, LIVE) in r.moves <==> v in s.dirs))
      && (LIVE in s.dirs && s.record.Some? && s.record.value !in s.dirs + {LIVE, v} && v != LIVE ==>
            (r.moves == [Move(LIVE, s.record.value), Move(v, LIVE)] <==> v in s.dirs))
      && (!r.threw ==> r.state.record == Some(v))
      && (r.threw ==> r.state.record == s.record)
      && (!(LIVE in s.dirs && s.record.Some?) && v !in s.dirs ==> r == Swapped(SwapState(s.dirs, Some(v)), [], false))
  {
  }

  /**
   * Relaunching the recorded version when no directory of that name exists:
   * the live directory is renamed out and straight back, two renames that
   * leave the directories as they were.
   */
  lemma OldSwapRelaunch(s: SwapState, v: string)
    requires LIVE in s.dirs && s.record == Some(v) && v !in s.dirs && v != LIVE
    ensures OldSwapBlock(s, v, true) == Swapped(s, [Move(LIVE, v), Move(v, LIVE)], false)
  {
    var d1 := s.dirs - {LIVE} + {v};
    assert v in d1 && LIVE !in d1;
    assert d1 - {v} + {LIVE} == s.dirs;
  }
}

=== FILE: downloading.dfy ===
/**
 * `download` (cache_handler.py): create every file's directory, then run
 * `download_file` over the shuffled work list with the default retry count.
 */
module Downloading {
  import opened Wrappers
  import opened FileSystem
  import opened Tallies
  import opened Integrity
  import opened Fetcher

  /** No directory needed by `p`'s parent is blocked by a file. */
  ghost predicate ParentClear(fs: Fs, p: Path) {
    forall k :: 1 <= k <= |Parent(p)| ==> !IsFile(fs, Parent(p)[..k])
  }

  /** The parents of `files[..k]` were clear of files and are now directories on `after`. */
  ghost predicate PreparedUpTo(fs: Fs, after: Fs, files: seq<FileInfo>, k: int)
    requires 0 <= k <= |files|
  {
    forall j :: 0 <= j < k ==>
      && ParentClear(fs, files[j].localPath)
      && (|files[j].localPath| >= 1 ==> IsDir(after, Parent(files[j].localPath)))
  }

  /** The disk after the directory loop, and the error that ended it early, if any. */
  datatype Prepared = Prepared(fs: Fs, failed: Option<Error>)

  /**
   * `f.local_path.parent.mkdir(parents=True, exist_ok=True)` for each file,
   * in list order. A failing `mkdir` ends the loop, and the directories the
   * earlier iterations created stay on disk.
   */
  function PrepareParents(fs: Fs, files: seq<FileInfo>): (r: Prepared)
    ensures r.failed.None? <==> forall f :: f in files ==> ParentClear(fs, f.localPath)
    ensures forall q :: q in fs ==> q in r.fs && r.fs[q] == fs[q]
    ensures forall q :: q in r.fs && q !in fs ==> r.fs[q].Dir?
    ensures r.failed.None? ==> forall f :: f in files && |f.localPath| >= 1 ==> IsDir(r.fs, Parent(f.localPath))
    ensures r.failed.Some? ==> r.failed.value == FileExists
    ensures r.failed.Some? ==>
      exists k :: 0 <= k < |files| && !ParentClear(fs, files[k].localPath) && PreparedUpTo(fs, r.fs, files, k)
    decreases |files|
  {
    if |files| == 0 then Prepared(fs, None)
    else
      var p := Parent(files[0].localPath);
      match MkdirAll(fs, p)
      case Failure(e) =>
        assert PreparedUpTo(fs, fs, files, 0);
        Prepared(fs, Some(e))
      case Success(fs1) =>
        assert forall q :: IsFile(fs1, q) <==> IsFile(fs, q);
        assert forall f :: f in files[1..] ==> (ParentClear(fs1, f.localPath) <==> ParentClear(fs, f.localPath));
        assert |p| >= 1 ==> p[..|p|] == p;
        var r := PrepareParents(fs1, files[1..]);
        assert forall f :: f in files ==> f == files[0] || f in files[1..];
        if r.failed.Some? then
          PrepareParentsShift(fs, fs1, r.fs, files);
          r
        else r
  }

  /** A failure in the rest of the list, after the first file's parent was made, is a failure at the next index. */
  lemma PrepareParentsShift(fs: Fs, fs1: Fs, after: Fs, files: seq<FileInfo>)
    requires |files| > 0
    requires ParentClear(fs, files[0].localPath)
    requires |files[0].localPath| >= 1 ==> IsDir(fs1, Parent(files[0].localPath))
    requires forall q :: q in fs1 ==> q in after && after[q] == fs1[q]
    requires forall f :: f in files[1..] ==> (ParentClear(fs1, f.localPath) <==> ParentClear(fs, f.localPath))
    requires exists k :: 0 <= k < |files[1..]| && !ParentClear(fs1, files[1..][k].localPath) && PreparedUpTo(fs1, after, files[1..], k)
    ensures exists k :: 0 <= k < |files| && !ParentClear(fs, files[k].localPath) && PreparedUpTo(fs, after, files, k)
  {
    var k :| 0 <= k < |files[1..]| && !ParentClear(fs1, files[1..][k].localPath) && PreparedUpTo(fs1, after, files[1..], k);
    assert files[1..][k] == files[k + 1];
    forall j | 0 <= j < k + 1
      ensures ParentClear(fs, files[j].localPath)
      ensures |files[j].localPath| >= 1 ==> IsDir(after, Parent(files[j].localPath))
    {
      if j > 0 {
        assert files[1..][j - 1] == files[j];
        assert files[j] in files[1..];
      }
    }
    assert PreparedUpTo(fs, after, files, k + 1);
  }

  /** What the download leaves behind: the disk, the tallies, and per processed file its GET count and message. */
  datatype Downloaded = Downloaded(fs: Fs, sizes: SizeDict, gets: seq<nat>, messages: seq<SizeDict>)

  /** `download_file` run over the work list, one file after another. */
  function FetchAll(fs: Fs, sizes: SizeDict, order: seq<FileInfo>, digest: Digest, net: Network): (r: Downloaded)
    ensures |r.gets| == |order| && |r.messages| == |order|
    ensures forall j :: 0 <= j < |order| ==> r.gets[j] <= RETRIES
    ensures |order| > 0 ==> r.messages[|order| - 1] == r.sizes
    ensures Grows(sizes, r.sizes)
    decreases |order|
  {
    if |order| == 0 then Downloaded(fs, sizes, [], [])
    else
      var d := DownloadFile(fs, sizes, order[0], digest, net, RETRIES);
      var rest := FetchAll(d.fs, d.sizes, order[1..], digest, net);
      GrowsTransitive(sizes, d.sizes, rest.sizes);
      Downloaded(rest.fs, rest.sizes, [d.gets] + rest.gets, d.messages + rest.messages)
  }

  /** How `download` ended: it fetched the work list, or a `mkdir` raised and left the disk it had prepared so far. */
  datatype DownloadResult = Ran(out: Downloaded) | Aborted(fs: Fs, error: Error)

  /** `download`: prepare directories in list order (an error there ends the run), then fetch in shuffled order. */
  function Download(fs: Fs, sizes: SizeDict, files: seq<FileInfo>, shuffled: seq<FileInfo>, digest: Digest, net: Network)
    : (r: DownloadResult)
    requires multiset(shuffled) == multiset(files)
    ensures r.Ran? <==> forall f :: f in files ==> ParentClear(fs, f.localPath)
    ensures r.Ran? ==> |r.out.messages| == |files| && |r.out.gets| == |files|
    ensures r.Ran? ==> forall j :: 0 <= j < |files| ==> r.out.gets[j] <= RETRIES
    ensures r.Ran? ==> Grows(sizes, r.out.sizes)
    ensures r.Aborted? ==> r.error == FileExists
    ensures r.Aborted? ==> forall q :: q in fs ==> q in r.fs && r.fs[q] == fs[q]
    ensures r.Aborted? ==> forall q :: q in r.fs && q !in fs ==> r.fs[q].Dir?
    ensures r.Aborted? ==>
      exists k :: 0 <= k < |files| && !ParentClear(fs, files[k].localPath) && PreparedUpTo(fs, r.fs, files, k)
  {
    assert |shuffled| == |multiset(shuffled)| == |files|;
    var prepared := PrepareParents(fs, files);
    match prepared.failed
    case Some(e) => Aborted(prepared.fs, e)
    case None => Ran(FetchAll(prepared.fs, sizes, shuffled, digest, net))
  }

  /** One `download_file` leaves a path alone when it is not the file's own or the file there is intact. */
  lemma DownloadFileKeepsIntact(fs: Fs, sizes: SizeDict, f: FileInfo, digest: Digest, net: Network, p: Path)
    requires p in fs
    requires f.localPath == p ==> Intact(fs, f, digest)
    ensures var d := DownloadFile(fs, sizes, f, digest, net, RETRIES);
      && p in d.fs && d.fs[p] == fs[p]
      && (f.localPath == p ==> d.gets == 0)
  {
  }

  /**
   * A path whose every listed file is already intact is never written and
   * never fetched: each of its `download_file` calls passes its first check.
   */
  lemma {:induction false} FetchAllKeepsIntact(fs: Fs, sizes: SizeDict, order: seq<FileInfo>, digest: Digest, net: Network, p: Path)
    requires p in fs
    requires forall g :: g in order && g.localPath == p ==> Intact(fs, g, digest)
    ensures var r := FetchAll(fs, sizes, order, digest, net);
      && p in r.fs && r.fs[p] == fs[p]
      && forall j :: 0 <= j < |order| && order[j].localPath == p ==> r.gets[j] == 0
    decreases |order|
  {
    if |order| > 0 {
      var d := DownloadFile(fs, sizes, order[0], digest, net, RETRIES);
      assert order[0] in order;
      DownloadFileKeepsIntact(fs, sizes, order[0], digest, net, p);
      forall g | g in order[1..] && g.localPath == p
        ensures Intact(d.fs, g, digest)
      {
        assert g in order;
      }
      FetchAllKeepsIntact(d.fs, d.sizes, order[1..], digest, net, p);
      var rest := FetchAll(d.fs, d.sizes, order[1..], digest, net);
      NoGetsCons(d.gets, rest.gets, order, p);
    }
  }

  /** No GET for the first file and none for the later files at `p` means none for any file at `p`. */
  lemma NoGetsCons(first: nat, rest: seq<nat>, order: seq<FileInfo>, p: Path)
    requires |order| == |rest| + 1
    requires order[0].localPath == p ==> first == 0
    requires forall j :: 0 <= j < |rest| && order[1..][j].localPath == p ==> rest[j] == 0
    ensures forall j :: 0 <= j < |order| && order[j].localPath == p ==> ([first] + rest)[j] == 0
  {
    forall j | 0 <= j < |order| && order[j].localPath == p
      ensures ([first] + rest)[j] == 0
    {
      if j > 0 {
        assert order[1..][j - 1] == order[j];
      }
    }
  }

  /**
   * An already intact file is left alone: when every work-list entry for
   * path `p` finds its file intact, a whole download, in whatever order the
   * shuffle gives, makes no GET for those entries and leaves `p` unchanged.
   */
  lemma DownloadLeavesIntactAlone(fs: Fs, sizes: SizeDict, files: seq<FileInfo>, shuffled: seq<FileInfo>, digest: Digest, net: Network, p: Path)
    requires multiset(shuffled) == multiset(files)
    requires forall f :: f in files ==> ParentClear(fs, f.localPath)
    requires p in fs
    requires forall g :: g in files && g.localPath == p ==> Intact(fs, g, digest)
    ensures var r := Download(fs, sizes, files, shuffled, digest, net).out;
      && p in r.fs && r.fs[p] == fs[p]
      && forall j :: 0 <= j < |shuffled| && shuffled[j].localPath == p ==> r.gets[j] == 0
  {
    var prepared := PrepareParents(fs, files).fs;
    forall g | g in shuffled && g.localPath == p
      ensures Intact(prepared, g, digest)
    {
      assert g in multiset(files);
    }
    FetchAllKeepsIntact(prepared, sizes, shuffled, digest, net, p);
  }

  /** A path no work-list entry names is left exactly as it was. */
  lemma {:induction false} FetchAllFrame(fs: Fs, sizes: SizeDict, order: seq<FileInfo>, digest: Digest, net: Network, q: Path)
    requires forall g :: g in order ==> g.localPath != q
    ensures var r := FetchAll(fs, sizes, order, digest, net);
      && (q in r.fs <==> q in fs) && (q in fs ==> r.fs[q] == fs[q])
    decreases |order|
  {
    if |order| > 0 {
      var d := DownloadFile(fs, sizes, order[0], digest, net, RETRIES);
      assert order[0] in order;
      assert forall g :: g in order[1..] ==> g in order;
      FetchAllFrame(d.fs, d.sizes, order[1..], digest, net, q);
    }
  }

  /** `download` writes only at listed local paths; everything else on disk is kept, apart from new directories. */
  lemma DownloadFrame(fs: Fs, sizes: SizeDict, files: seq<FileInfo>, shuffled: seq<FileInfo>, digest: Digest, net: Network, q: Path)
    requires multiset(shuffled) == multiset(files)
    requires forall f :: f in files ==> ParentClear(fs, f.localPath)
    requires forall g :: g in files ==> g.localPath != q
    ensures var r := Download(fs, sizes, files, shuffled, digest, net).out;
      && (q in fs ==> q in r.fs && r.fs[q] == fs[q])
      && (q in r.fs && q !in fs ==> r.fs[q].Dir?)
  {
    var prepared := PrepareParents(fs, files).fs;
    forall g | g in shuffled
      ensures g.localPath != q
    {
      assert g in multiset(files);
    }
    FetchAllFrame(prepared, sizes, shuffled, digest, net, q);
  }
}

=== FILE: fetcher.dfy ===
/**
 * `download_file` (cache_handler.py): skip a file that is already intact,
 * otherwise fetch it with a bounded number of GET attempts, re-checking the
 * file after each one, and report once.
 */
module Fetcher {
  import opened Wrappers
  import opened FileSystem
  import opened Tallies
  import opened Integrity

  /** The default of the `retries` parameter. */
  const RETRIES: nat := 5

  /**
   * What one streamed GET does: the whole body arrives, or the request
   * raises, either before the local file was opened (`Broken(None)`) or after
   * some bytes were written to it (`Broken(Some(partial))`).
   */
  datatype GetResult = Body(data: seq<Byte>) | Broken(partial: Option<seq<Byte>>)

  /** The answer to the `attempt`-th GET of a URL. */
  type Network = (string, nat) -> GetResult

  /** `f`'s local path, and nothing else, may differ between `a` and `b`. */
  ghost predicate OnlyAt(a: Fs, b: Fs, p: Path) {
    forall q :: q != p ==> (q in a <==> q in b) && (q in a ==> a[q] == b[q])
  }

  datatype Attempted = Attempted(fs: Fs, raised: bool)

  /** The body of the `try` in the retry loop: open the file for writing and stream the response into it. */
  function Attempt(fs: Fs, p: Path, res: GetResult): (r: Attempted)
    ensures !r.raised <==> res.Body? && CanWrite(fs, p)
    ensures !r.raised ==> IsFile(r.fs, p) && r.fs[p].content == res.data
    ensures r.fs != fs ==> CanWrite(fs, p)
    ensures CanWrite(r.fs, p) <==> CanWrite(fs, p)
  {
    match res
    case Body(data) =>
      if CanWrite(fs, p) then Attempted(Write(fs, p, data), false) else Attempted(fs, true)
    case Broken(None) => Attempted(fs, true)
    case Broken(Some(partial)) =>
      if CanWrite(fs, p) then Attempted(Write(fs, p, partial), true) else Attempted(fs, true)
  }

  /** An attempt touches nothing on the disk but the file it writes. */
  lemma AttemptOnlyAt(fs: Fs, p: Path, res: GetResult)
    ensures OnlyAt(fs, Attempt(fs, p, res).fs, p)
  {
  }

  /** Sleep lengths in seconds, strictly increasing, each within `lo + 1 .. hi`. */
  ghost predicate SleepsWithin(sleeps: seq<nat>, lo: nat, hi: nat) {
    && (forall j :: 0 <= j < |sleeps| ==> lo < sleeps[j] <= hi)
    && (forall j, k :: 0 <= j < k < |sleeps| ==> sleeps[j] < sleeps[k])
  }

  /** The outcome of the retry loop: per GET attempt whether it raised, and its re-check verdict. */
  datatype Retried = Retried(fs: Fs, sizes: SizeDict, raised: seq<bool>, sleeps: seq<nat>, checks: seq<bool>)

  /** One turn of the retry loop: GET attempt `i` and the re-check; the loop sleeps `i + 1` seconds if it raised. */
  datatype Turned = Turned(fs: Fs, sizes: SizeDict, raised: bool, intact: bool)

  function Turn(fs: Fs, sizes: SizeDict, f: FileInfo, digest: Digest, net: Network, i: nat): (r: Turned)
    ensures r.intact <==> Intact(r.fs, f, digest)
  {
    var a := Attempt(fs, f.localPath, net(f.urlPath, i));
    var c := CheckFileHash(a.fs, sizes, f, digest);
    Turned(a.fs, c.sizes, a.raised, c.intact)
  }

  /** A turn raises exactly when the GET gives no full body or the file cannot be opened for writing, which the turn does not change. */
  lemma TurnRaises(fs: Fs, sizes: SizeDict, f: FileInfo, digest: Digest, net: Network, i: nat)
    ensures var t := Turn(fs, sizes, f, digest, net, i);
      && (t.raised <==> !(net(f.urlPath, i).Body? && CanWrite(fs, f.localPath)))
      && (CanWrite(t.fs, f.localPath) <==> CanWrite(fs, f.localPath))
  {
  }

  /** The retry loop from attempt `i` on. */
  function RetryFrom(fs: Fs, sizes: SizeDict, f: FileInfo, digest: Digest, net: Network, retries: nat, i: nat): (r: Retried)
    requires i <= retries
    decreases retries - i
  {
    if i == retries then Retried(fs, sizes, [], [], [])
    else
      var t := Turn(fs, sizes, f, digest, net, i);
      if t.intact then Retried(t.fs, t.sizes, [t.raised], if t.raised then [i + 1] else [], [true])
      else
        var rest := RetryFrom(t.fs, t.sizes, f, digest, net, retries, i + 1);
        Retried(rest.fs, rest.sizes, [t.raised] + rest.raised, if t.raised then [i + 1] + rest.sleeps else rest.sleeps,
                [false] + rest.checks)
  }

  /**
   * The retry loop makes at most `retries - i` attempts, stops right after
   * the first re-check that passes, and stops early only then.
   */
  lemma {:induction false} RetryFromStops(fs: Fs, sizes: SizeDict, f: FileInfo, digest: Digest, net: Network, retries: nat, i: nat)
    requires i <= retries
    ensures var r := RetryFrom(fs, sizes, f, digest, net, retries, i);
      && |r.checks| <= retries - i
      && (i < retries ==> |r.checks| >= 1)
      && (forall j :: 0 <= j < |r.checks| - 1 ==> !r.checks[j])
      && (|r.checks| < retries - i ==> r.checks[|r.checks| - 1])
      && (|r.checks| > 0 ==> (r.checks[|r.checks| - 1] <==> Intact(r.fs, f, digest)))
      && (|r.checks| == 0 ==> r.fs == fs && r.sizes == sizes)
    decreases retries - i
  {
    if i < retries {
      var t := Turn(fs, sizes, f, digest, net, i);
      if !t.intact {
        RetryFromStops(t.fs, t.sizes, f, digest, net, retries, i + 1);
      }
    }
  }

  /**
   * Each of `raised`, the outcomes of attempts `i`, `i + 1`, ..., is `true`
   * exactly when the server gives no full body for that attempt or the file
   * cannot be opened for writing.
   */
  ghost predicate RaisesAsServed(raised: seq<bool>, net: Network, url: string, i: nat, writable: bool) {
    forall j :: 0 <= j < |raised| ==> (raised[j] <==> !(net(url, i + j).Body? && writable))
  }

  /**
   * Attempt `i + j` raises exactly when the server gives no full body or the
   * file cannot be opened for writing. The loop never changes whether it
   * can be opened, so that is decided by the disk the loop starts from.
   */
  lemma {:induction false} RetryFromRaised(fs: Fs, sizes: SizeDict, f: FileInfo, digest: Digest, net: Network, retries: nat, i: nat)
    requires i <= retries
    ensures var r := RetryFrom(fs, sizes, f, digest, net, retries, i);
      |r.raised| == |r.checks| && RaisesAsServed(r.raised, net, f.urlPath, i, CanWrite(fs, f.localPath))
    decreases retries - i
  {
    if i < retries {
      var t := Turn(fs, sizes, f, digest, net, i);
      if t.intact {
        RaisedLast(fs, sizes, f, digest, net, retries, i);
      } else {
        RetryFromRaised(t.fs, t.sizes, f, digest, net, retries, i + 1);
        RaisedStep(fs, sizes, f, digest, net, retries, i);
      }
    }
  }

  /** The last turn of `RetryFromRaised`: turn `i` passes its re-check. */
  lemma RaisedLast(fs: Fs, sizes: SizeDict, f: FileInfo, digest: Digest, net: Network, retries: nat, i: nat)
    requires i < retries && Turn(fs, sizes, f, digest, net, i).intact
    ensures var r := RetryFrom(fs, sizes, f, digest, net, retries, i);
      |r.raised| == |r.checks| && RaisesAsServed(r.raised, net, f.urlPath, i, CanWrite(fs, f.localPath))
  {
    var t := Turn(fs, sizes, f, digest, net, i);
    TurnRaises(fs, sizes, f, digest, net, i);
    var r := RetryFrom(fs, sizes, f, digest, net, retries, i);
    assert r.raised == [t.raised] && r.checks == [true];
    assert RaisesAsServed(r.raised, net, f.urlPath, i, CanWrite(fs, f.localPath)) by {
      assert r.raised[0] == t.raised && i + 0 == i;
    }
  }

  /** The inductive step of `RetryFromRaised`: turn `i` fails its re-check and the loop goes on. */
  lemma RaisedStep(fs: Fs, sizes: SizeDict, f: FileInfo, digest: Digest, net: Network, retries: nat, i: nat)
    requires i < retries && !Turn(fs, sizes, f, digest, net, i).intact
    requires var t := Turn(fs, sizes, f, digest, net, i);
      var rest := RetryFrom(t.fs, t.sizes, f, digest, net, retries, i + 1);
      |rest.raised| == |rest.checks| && RaisesAsServed(rest.raised, net, f.urlPath, i + 1, CanWrite(t.fs, f.localPath))
    ensures var r := RetryFrom(fs, sizes, f, digest, net, retries, i);
      |r.raised| == |r.checks| && RaisesAsServed(r.raised, net, f.urlPath, i, CanWrite(fs, f.localPath))
  {
    var t := Turn(fs, sizes, f, digest, net, i);
    var rest := RetryFrom(t.fs, t.sizes, f, digest, net, retries, i + 1);
    TurnRaises(fs, sizes, f, digest, net, i);
    assert RetryFrom(fs, sizes, f, digest, net, retries, i).raised == [t.raised] + rest.raised;
    RaisedShift(t.raised, rest.raised, net, f.urlPath, i, CanWrite(fs, f.localPath));
  }

  /** Prepending attempt `i`'s outcome to those of attempts `i + 1` on. */
  lemma RaisedShift(first: bool, rest: seq<bool>, net: Network, url: string, i: nat, writable: bool)
    requires first <==> !(net(url, i).Body? && writable)
    requires RaisesAsServed(rest, net, url, i + 1, writable)
    ensures RaisesAsServed([first] + rest, net, url, i, writable)
  {
    forall j | 0 < j < 1 + |rest|
      ensures ([first] + rest)[j] <==> !(net(url, i + j).Body? && writable)
    {
      assert ([first] + rest)[j] == rest[j - 1] && i + 1 + (j - 1) == i + j;
    }
  }

  /** The loop sleeps `j + 1` seconds at most once per attempt `j`, so the sleeps are increasing. */
  lemma {:induction false} RetryFromSleeps(fs: Fs, sizes: SizeDict, f: FileInfo, digest: Digest, net: Network, retries: nat, i: nat)
    requires i <= retries
    ensures var r := RetryFrom(fs, sizes, f, digest, net, retries, i);
      SleepsWithin(r.sleeps, i, i + |r.checks|)
    decreases retries - i
  {
    if i < retries {
      var t := Turn(fs, sizes, f, digest, net, i);
      if !t.intact {
        RetryFromSleeps(t.fs, t.sizes, f, digest, net, retries, i + 1);
        var rest := RetryFrom(t.fs, t.sizes, f, digest, net, retries, i + 1);
        if t.raised {
          SleepsCons(i, rest.sleeps, i + 1 + |rest.checks|);
        }
      }
    }
  }

  /** A sleep shorter than all later ones can go in front. */
  lemma SleepsCons(i: nat, rest: seq<nat>, hi: nat)
    requires i + 1 <= hi && SleepsWithin(rest, i + 1, hi)
    ensures SleepsWithin([i + 1] + rest, i, hi)
  {
    var all := [i + 1] + rest;
    forall j | 0 < j < |all|
      ensures all[j] == rest[j - 1]
    {
    }
  }

  /** Attempt `i + j` raised exactly when `sleeps` holds a sleep of `i + j + 1` seconds. */
  ghost predicate SleepsFollow(raised: seq<bool>, sleeps: seq<nat>, i: nat) {
    forall j :: 0 <= j < |raised| ==> (raised[j] <==> i + j + 1 in sleeps)
  }

  /** The loop sleeps `j + 1` seconds exactly after the attempts `j` that raised, and at no other time. */
  lemma {:induction false} RetryFromSleepsFollowRaises(fs: Fs, sizes: SizeDict, f: FileInfo, digest: Digest, net: Network,
                                                       retries: nat, i: nat)
    requires i <= retries
    ensures var r := RetryFrom(fs, sizes, f, digest, net, retries, i);
      |r.raised| == |r.checks| && SleepsFollow(r.raised, r.sleeps, i)
    decreases retries - i
  {
    if i < retries {
      var t := Turn(fs, sizes, f, digest, net, i);
      var r := RetryFrom(fs, sizes, f, digest, net, retries, i);
      if t.intact {
        assert r.raised == [t.raised] && r.sleeps == (if t.raised then [i + 1] else []) && |r.checks| == 1;
      } else {
        RetryFromSleepsFollowRaises(t.fs, t.sizes, f, digest, net, retries, i + 1);
        RetryFromSleeps(t.fs, t.sizes, f, digest, net, retries, i + 1);
        var rest := RetryFrom(t.fs, t.sizes, f, digest, net, retries, i + 1);
        assert r.raised == [t.raised] + rest.raised && |r.checks| == 1 + |rest.checks|;
        assert r.sleeps == if t.raised then [i + 1] + rest.sleeps else rest.sleeps;
        SleepsFollowCons(t.raised, rest.raised, rest.sleeps, i, i + 1 + |rest.checks|);
      }
    }
  }

  /** Prepending attempt `i`, with its sleep if it raised, to attempts `i + 1` on. */
  lemma SleepsFollowCons(first: bool, rest: seq<bool>, sleeps: seq<nat>, i: nat, hi: nat)
    requires SleepsFollow(rest, sleeps, i + 1) && SleepsWithin(sleeps, i + 1, hi)
    ensures SleepsFollow([first] + rest, if first then [i + 1] + sleeps else sleeps, i)
  {
    var all := if first then [i + 1] + sleeps else sleeps;
    forall j | 0 <= j < 1 + |rest|
      ensures ([first] + rest)[j] <==> i + j + 1 in all
    {
      if j == 0 {
        assert i + 1 !in sleeps;
      } else {
        assert ([first] + rest)[j] == rest[j - 1];
        assert i + j + 1 in all <==> i + j + 1 in sleeps;
      }
    }
  }

  /** The loop writes nothing but the file being fetched and only adds to counters. */
  lemma {:induction false} RetryFromFrame(fs: Fs, sizes: SizeDict, f: FileInfo, digest: Digest, net: Network, retries: nat, i: nat)
    requires i <= retries
    ensures var r := RetryFrom(fs, sizes, f, digest, net, retries, i);
      OnlyAt(fs, r.fs, f.localPath) && Grows(sizes, r.sizes)
    decreases retries - i
  {
    if i < retries {
      var t := Turn(fs, sizes, f, digest, net, i);
      var a := Attempt(fs, f.localPath, net(f.urlPath, i));
      AttemptOnlyAt(fs, f.localPath, net(f.urlPath, i));
      CheckFileHashGrows(a.fs, sizes, f, digest);
      if !t.intact {
        RetryFromFrame(t.fs, t.sizes, f, digest, net, retries, i + 1);
        var rest := RetryFrom(t.fs, t.sizes, f, digest, net, retries, i + 1);
        GrowsTransitive(sizes, t.sizes, rest.sizes);
      }
    }
  }

  /**
   * What one `download_file` call leaves behind: the disk, the tallies, the
   * number of GET requests, the sleeps taken, the verdict of every
   * `check_file_hash` call in order, and the progress messages sent.
   */
  datatype Fetched = Fetched(fs: Fs, sizes: SizeDict, gets: nat, raised: seq<bool>, sleeps: seq<nat>, checks: seq<bool>,
                             messages: seq<SizeDict>)

  function DownloadFile(fs: Fs, sizes: SizeDict, f: FileInfo, digest: Digest, net: Network, retries: nat): (r: Fetched)
    ensures Intact(fs, f, digest) ==> r.gets == 0 && r.fs == fs && r.sleeps == []
    ensures r.gets <= retries
    ensures !Intact(fs, f, digest) && retries > 0 ==> r.gets >= 1
    ensures |r.checks| == r.gets + 1 && (r.checks[0] <==> Intact(fs, f, digest))
    ensures forall j :: 0 <= j < |r.checks| - 1 ==> !r.checks[j]
    ensures r.gets < retries ==> r.checks[|r.checks| - 1]
    ensures r.checks[|r.checks| - 1] <==> Intact(r.fs, f, digest)
    ensures SleepsWithin(r.sleeps, 0, r.gets)
    ensures r.messages == [r.sizes]
    ensures OnlyAt(fs, r.fs, f.localPath)
    ensures Grows(sizes, r.sizes)
  {
    var c := CheckFileHash(fs, sizes, f, digest);
    CheckFileHashGrows(fs, sizes, f, digest);
    if c.intact then Fetched(fs, c.sizes, 0, [], [], [true], [c.sizes])
    else
      var r := Refetch(fs, c.sizes, f, digest, net, retries);
      GrowsTransitive(sizes, c.sizes, r.sizes);
      r
  }

  /** `download_file` once the first check failed: the retry loop and the final message. */
  function Refetch(fs: Fs, sizes: SizeDict, f: FileInfo, digest: Digest, net: Network, retries: nat): (r: Fetched)
    requires !Intact(fs, f, digest)
    ensures r.gets <= retries && (retries > 0 ==> r.gets >= 1)
    ensures |r.checks| == r.gets + 1 && !r.checks[0]
    ensures forall j :: 0 <= j < |r.checks| - 1 ==> !r.checks[j]
    ensures r.gets < retries ==> r.checks[|r.checks| - 1]
    ensures r.checks[|r.checks| - 1] <==> Intact(r.fs, f, digest)
    ensures SleepsWithin(r.sleeps, 0, r.gets)
    ensures r.messages == [r.sizes]
    ensures OnlyAt(fs, r.fs, f.localPath)
    ensures Grows(sizes, r.sizes)
  {
    var rr := RetryFrom(fs, sizes, f, digest, net, retries, 0);
    RetryFromStops(fs, sizes, f, digest, net, retries, 0);
    RetryFromSleeps(fs, sizes, f, digest, net, retries, 0);
    RetryFromFrame(fs, sizes, f, digest, net, retries, 0);
    Fetched(rr.fs, rr.sizes, |rr.checks|, rr.raised, rr.sleeps, [false] + rr.checks, [rr.sizes])
  }

  /** The retry branch raises and sleeps as its loop does. */
  lemma RefetchRaises(fs: Fs, sizes: SizeDict, f: FileInfo, digest: Digest, net: Network, retries: nat)
    requires !Intact(fs, f, digest)
    ensures var r := Refetch(fs, sizes, f, digest, net, retries);
      && |r.raised| == r.gets
      && RaisesAsServed(r.raised, net, f.urlPath, 0, CanWrite(fs, f.localPath))
      && SleepsFollow(r.raised, r.sleeps, 0)
  {
    RetryFromRaised(fs, sizes, f, digest, net, retries, 0);
    RetryFromSleepsFollowRaises(fs, sizes, f, digest, net, retries, 0);
  }

  /**
   * Attempt `j` of `download_file` raises exactly when the server gives no
   * full body or the file cannot be opened for writing, and the call sleeps
   * `j + 1` seconds exactly after the attempts that raised.
   */
  lemma DownloadFileRaises(fs: Fs, sizes: SizeDict, f: FileInfo, digest: Digest, net: Network, retries: nat)
    ensures var r := DownloadFile(fs, sizes, f, digest, net, retries);
      && |r.raised| == r.gets
      && RaisesAsServed(r.raised, net, f.urlPath, 0, CanWrite(fs, f.localPath))
      && SleepsFollow(r.raised, r.sleeps, 0)
  {
    if !Intact(fs, f, digest) {
      RefetchRaises(fs, CheckFileHash(fs, sizes, f, digest).sizes, f, digest, net, retries);
    }
  }

  /**
   * `download_file` as the handler writes it: an initial check, a `for` loop
   * over the attempts that breaks on the first passing re-check, then one
   * message.
   */
  method DownloadFileLoop(fs: Fs, sizes: SizeDict, f: FileInfo, digest: Digest, net: Network, retries: nat)
    returns (r: Fetched)
    ensures r == DownloadFile(fs, sizes, f, digest, net, retries)
  {
    var c := CheckFileHash(fs, sizes, f, digest);
    if c.intact {
      return Fetched(fs, c.sizes, 0, [], [], [true], [c.sizes]);
    }
    var rr := RetryLoop(fs, c.sizes, f, digest, net, retries);
    r := Fetched(rr.fs, rr.sizes, |rr.checks|, rr.raised, rr.sleeps, [false] + rr.checks, [rr.sizes]);
    assert r == Refetch(fs, c.sizes, f, digest, net, retries);
  }

  /** The outcome of a retry loop whose earlier turns already raised `raised`, slept `sleeps` and checked `checks`. */
  function After(raised: seq<bool>, sleeps: seq<nat>, checks: seq<bool>, rest: Retried): Retried {
    Retried(rest.fs, rest.sizes, raised + rest.raised, sleeps + rest.sleeps, checks + rest.checks)
  }

  /** Nothing done before the loop. */
  lemma AfterNothing(rest: Retried)
    ensures After([], [], [], rest) == rest
  {
    assert [] + rest.raised == rest.raised && [] + rest.sleeps == rest.sleeps && [] + rest.checks == rest.checks;
  }

  /** Nothing left after the last turn. */
  lemma AfterLast(raised: seq<bool>, sleeps: seq<nat>, checks: seq<bool>, fs: Fs, sizes: SizeDict)
    ensures After(raised, sleeps, checks, Retried(fs, sizes, [], [], [])) == Retried(fs, sizes, raised, sleeps, checks)
  {
    assert raised + [] == raised && sleeps + [] == sleeps && checks + [] == checks;
  }

  /** The sleeps taken so far once turn `i` is done. */
  function Slept(sleeps: seq<nat>, raised: bool, i: nat): seq<nat> {
    if raised then sleeps + [i + 1] else sleeps
  }

  /** One turn of the loop: it either ends the loop with its outcome or hands over to turn `i + 1`. */
  lemma RetryLoopStep(cur: Fs, tally: SizeDict, f: FileInfo, digest: Digest, net: Network, retries: nat, i: nat,
                      raised: seq<bool>, sleeps: seq<nat>, checks: seq<bool>, whole: Retried)
    requires i < retries
    requires whole == After(raised, sleeps, checks, RetryFrom(cur, tally, f, digest, net, retries, i))
    ensures var t := Turn(cur, tally, f, digest, net, i);
      t.intact ==> whole == Retried(t.fs, t.sizes, raised + [t.raised], Slept(sleeps, t.raised, i), checks + [true])
    ensures var t := Turn(cur, tally, f, digest, net, i);
      !t.intact ==> whole == After(raised + [t.raised], Slept(sleeps, t.raised, i), checks + [false],
                                   RetryFrom(t.fs, t.sizes, f, digest, net, retries, i + 1))
  {
    var t := Turn(cur, tally, f, digest, net, i);
    var here := RetryFrom(cur, tally, f, digest, net, retries, i);
    if t.intact {
      assert here == Retried(t.fs, t.sizes, [t.raised], if t.raised then [i + 1] else [], [true]);
      assert sleeps + [] == sleeps;
    } else {
      var rest := RetryFrom(t.fs, t.sizes, f, digest, net, retries, i + 1);
      assert here == Retried(rest.fs, rest.sizes, [t.raised] + rest.raised,
                             if t.raised then [i + 1] + rest.sleeps else rest.sleeps, [false] + rest.checks);
      assert raised + ([t.raised] + rest.raised) == (raised + [t.raised]) + rest.raised;
      assert sleeps + ([i + 1] + rest.sleeps) == (sleeps + [i + 1]) + rest.sleeps;
      assert checks + ([false] + rest.checks) == (checks + [false]) + rest.checks;
    }
  }

  /** The `for i in range(retries)` loop of `download_file`. */
  method RetryLoop(fs: Fs, sizes: SizeDict, f: FileInfo, digest: Digest, net: Network, retries: nat)
    returns (r: Retried)
    ensures r == RetryFrom(fs, sizes, f, digest, net, retries, 0)
  {
    var cur, tally := fs, sizes;
    var raised: seq<bool> := [];
    var sleeps: seq<nat> := [];
    var checks: seq<bool> := [];
    ghost var whole := RetryFrom(fs, sizes, f, digest, net, retries, 0);
    AfterNothing(whole);
    var i: nat := 0;
    while i < retries
      invariant i <= retries
      invariant whole == After(raised, sleeps, checks, RetryFrom(cur, tally, f, digest, net, retries, i))
    {
      var t := Turn(cur, tally, f, digest, net, i);
      RetryLoopStep(cur, tally, f, digest, net, retries, i, raised, sleeps, checks, whole);
      raised := raised + [t.raised];
      sleeps := Slept(sleeps, t.raised, i);
      cur, tally := t.fs, t.sizes;
      if t.intact {
        return Retried(cur, tally, raised, sleeps, checks + [true]);
      }
      checks := checks + [false];
      i := i + 1;
    }
    AfterLast(raised, sleeps, checks, cur, tally);
    r := Retried(cur, tally, raised, sleeps, checks);
  }

  /** A retry loop that ends on a passing re-check has credited the final bytes as intact. */
  lemma {:induction false} RetryFromCreditsRepair(fs: Fs, sizes: SizeDict, f: FileInfo, digest: Digest, net: Network, retries: nat, i: nat)
    requires i <= retries
    requires KeyOf(f) in sizes
    requires var r := RetryFrom(fs, sizes, f, digest, net, retries, i); |r.checks| > 0 && r.checks[|r.checks| - 1]
    ensures var r := RetryFrom(fs, sizes, f, digest, net, retries, i);
      && Readable(r.fs, f.localPath) && KeyOf(f) in r.sizes
      && r.sizes[KeyOf(f)].intact >= sizes[KeyOf(f)].intact + |r.fs[f.localPath].content|
    decreases retries - i
  {
    var t := Turn(fs, sizes, f, digest, net, i);
    var a := Attempt(fs, f.localPath, net(f.urlPath, i));
    CheckFileHashGrows(a.fs, sizes, f, digest);
    if !t.intact {
      RetryFromCreditsRepair(t.fs, t.sizes, f, digest, net, retries, i + 1);
    }
  }

  /**
   * A file that was present but altered and that the download repairs is
   * counted twice: its old bytes as altered and its new bytes as intact, so
   * the two counters together can exceed the total.
   */
  lemma DownloadFileCountsBoth(fs: Fs, sizes: SizeDict, f: FileInfo, digest: Digest, net: Network, retries: nat)
    requires Readable(fs, f.localPath) && !Intact(fs, f, digest) && KeyOf(f) in sizes
    requires Intact(DownloadFile(fs, sizes, f, digest, net, retries).fs, f, digest)
    ensures var r := DownloadFile(fs, sizes, f, digest, net, retries); var k := KeyOf(f);
      && k in r.sizes
      && r.sizes[k].altered >= sizes[k].altered + |fs[f.localPath].content|
      && r.sizes[k].intact >= sizes[k].intact + |r.fs[f.localPath].content|
  {
    var c := CheckFileHash(fs, sizes, f, digest);
    var rr := RetryFrom(fs, c.sizes, f, digest, net, retries, 0);
    RetryFromStops(fs, c.sizes, f, digest, net, retries, 0);
    RetryFromFrame(fs, c.sizes, f, digest, net, retries, 0);
    RetryFromCreditsRepair(fs, c.sizes, f, digest, net, retries, 0);
  }
}

=== FILE: filelist.dfy ===
/**
 * `swapped_path` and `compile_file_list` (cache_handler.py): where a
 * version's cache lives, and the work list and fresh tallies built from
 * the manifest.
 */
module FileList {
  import opened Wrappers
  import opened Strings
  import opened FileSystem
  import opened Tallies
  import opened CacheSwap

  /**
   * The cache directory the handler uses for `version` under `root`: the
   * live directory when the version is swapped in (no directory of its own,
   * a live directory, and `.lastver` holding exactly its name), its own
   * directory otherwise. `record` is the text of `.lastver` when it is a file.
   */
  function SwappedPath(fs: Fs, root: Path, record: Option<string>, version: string): (r: Path)
    ensures r == root + [LIVE] || r == root + [version]
    ensures r == root + [LIVE] && LIVE != version <==>
      && !IsDir(fs, root + [version])
      && IsDir(fs, root + [LIVE])
      && record == Some(version)
      && LIVE != version
  {
    if !IsDir(fs, root + [version]) && IsDir(fs, root + [LIVE]) && record == Some(version) then root + [LIVE]
    else
      assert (root + [version])[|root|] == version && (root + [LIVE])[|root|] == LIVE;
      root + [version]
  }

  /** The directory names directly under `root`, as the launcher page sees the cache root. */
  function DirNames(fs: Fs, root: Path): set<string> {
    set p | p in fs && |p| == |root| + 1 && p[..|root|] == root && fs[p].Dir? :: p[|root|]
  }

  lemma DirNamesMeaning(fs: Fs, root: Path, name: string)
    ensures name in DirNames(fs, root) <==> IsDir(fs, root + [name])
  {
    var p := root + [name];
    if IsDir(fs, p) {
      assert p[..|root|] == root && p[|root|] == name;
    }
    if name in DirNames(fs, root) {
      var q :| q in fs && |q| == |root| + 1 && q[..|root|] == root && fs[q].Dir? && q[|root|] == name;
      assert q == p;
    }
  }

  /**
   * The two sides agree: after the page has swapped `version` in without an
   * error, the handler looks for that version's files in the live directory.
   */
  lemma SwapThenSwappedPathIsLive(fs: Fs, root: Path, s: SwapState, version: string)
    requires version != LIVE
    requires !PerformCacheSwap(s, version).threw
    requires DirNames(fs, root) == PerformCacheSwap(s, version).state.dirs
    ensures SwappedPath(fs, root, PerformCacheSwap(s, version).state.record, version) == root + [LIVE]
  {
    SwapOutcome(s, version);
    DirNamesMeaning(fs, root, version);
    DirNamesMeaning(fs, root, LIVE);
  }

  /** One version of `hashes.json`: the two sizes and the two ordered `rel_path -> sha256` tables. */
  datatype Manifest = Manifest(playableSize: nat, offlineSize: nat, playable: seq<(string, string)>, offline: seq<(string, string)>)

  /** `hashes.json` as loaded: version names in file order, each once. */
  type HashDict = seq<(string, Manifest)>

  /** The placeholder for a version `hashes.json` does not know yet. */
  const EMPTY_MANIFEST: Manifest := Manifest(0, 0, [], [])

  function Names(hd: HashDict): (r: seq<string>)
    ensures |r| == |hd| && forall i :: 0 <= i < |hd| ==> r[i] == hd[i].0
  {
    seq(|hd|, i requires 0 <= i < |hd| => hd[i].0)
  }

  ghost predicate UniqueNames(hd: HashDict) {
    forall i, j :: 0 <= i < j < |hd| ==> hd[i].0 != hd[j].0
  }

  /** `hash_dict[name]`. */
  function Lookup(hd: HashDict, name: string): (r: Option<Manifest>)
    ensures r.None? <==> name !in Names(hd)
    ensures r.Some? ==> (name, r.value) in hd
    decreases |hd|
  {
    if |hd| == 0 then None
    else if hd[0].0 == name then Some(hd[0].1)
    else
      assert Names(hd) == [hd[0].0] + Names(hd[1..]);
      Lookup(hd[1..], name)
  }

  function Entries(m: Manifest, mode: Mode): seq<(string, string)> {
    if mode == Offline then m.offline else m.playable
  }

  function SizeOf(m: Manifest, mode: Mode): nat {
    if mode == Offline then m.offlineSize else m.playableSize
  }

  /** The manifest after the placeholder loop, and whether `hashes.json` is written back. */
  datatype Normalised = Normalised(hd: HashDict, updated: bool)

  /** Adds a placeholder for every `versions.json` name the manifest lacks, in that order. */
  function Normalise(hd: HashDict, versions: seq<string>): (r: Normalised)
    ensures |hd| <= |r.hd| && r.hd[..|hd|] == hd
    ensures forall v :: v in versions ==> v in Names(r.hd)
    ensures forall i :: |hd| <= i < |r.hd| ==> r.hd[i].1 == EMPTY_MANIFEST && r.hd[i].0 in versions && r.hd[i].0 !in Names(hd)
    ensures r.updated <==> |r.hd| > |hd|
    decreases |versions|
  {
    if |versions| == 0 then Normalised(hd, false)
    else
      var v := versions[0];
      var next := if v in Names(hd) then hd else hd + [(v, EMPTY_MANIFEST)];
      assert Names(next) == if v in Names(hd) then Names(hd) else Names(hd) + [v];
      var rest := Normalise(next, versions[1..]);
      assert rest.hd[..|hd|] == next[..|hd|] == hd;
      assert forall i :: |hd| <= i < |next| ==> rest.hd[i] == next[i] == (v, EMPTY_MANIFEST);
      assert forall w :: w in Names(hd) ==> w in Names(next);
      assert forall w :: w in versions ==> w == v || w in versions[1..];
      assert rest.hd[..|next|] == next;
      assert v in Names(next);
      assert forall i :: 0 <= i < |next| ==> rest.hd[i] == next[i];
      Normalised(rest.hd, rest.updated || v !in Names(hd))
  }

  /** The placeholders never repeat a name, so a manifest with unique names keeps them unique. */
  lemma {:induction false} NormaliseUnique(hd: HashDict, versions: seq<string>)
    requires UniqueNames(hd)
    ensures UniqueNames(Normalise(hd, versions).hd)
    decreases |versions|
  {
    if |versions| > 0 {
      var v := versions[0];
      var next := if v in Names(hd) then hd else hd + [(v, EMPTY_MANIFEST)];
      assert Names(next) == if v in Names(hd) then Names(hd) else Names(hd) + [v];
      NormaliseUnique(next, versions[1..]);
    }
  }

  /** The rewrite happens exactly when some `versions.json` name was missing, and known versions keep their manifests. */
  lemma NormaliseUpdated(hd: HashDict, versions: seq<string>)
    ensures Normalise(hd, versions).updated <==> exists v :: v in versions && v !in Names(hd)
    ensures forall name, m :: (name, m) in hd ==> (name, m) in Normalise(hd, versions).hd
  {
    var r := Normalise(hd, versions);
    if exists v :: v in versions && v !in Names(hd) {
      var v :| v in versions && v !in Names(hd);
      assert v in Names(r.hd);
      var i :| 0 <= i < |r.hd| && r.hd[i].0 == v;
    }
    forall name, m | (name, m) in hd
      ensures (name, m) in r.hd
    {
      var i :| 0 <= i < |hd| && hd[i] == (name, m);
      assert r.hd[..|hd|][i] == hd[i];
    }
  }

  /** `--cache-mode`: `all` or one mode. */
  datatype ModeArg = AllModes | OneMode(mode: Mode)

  /** `--cache-version`: `all` or one version name. */
  datatype VersionArg = AllVersions | OneVersion(name: string)

  /** The command-line arguments the list depends on. */
  datatype Args = Args(offlineRoot: Path, playableRoot: Path, cdnRoot: string, cacheMode: ModeArg, cacheVersion: VersionArg)

  /** The `--cdn-root` default. */
  const DEFAULT_CDN: string := "http://cdn.dexlabs.systems/ff/big"

  function Modes(a: ModeArg): (r: seq<Mode>)
    ensures a.AllModes? ==> r == [Offline, Playable]
    ensures a.OneMode? ==> r == [a.mode]
  {
    if a.AllModes? then [Offline, Playable] else [a.mode]
  }

  function RootOf(args: Args, mode: Mode): Path {
    if mode == Offline then args.offlineRoot else args.playableRoot
  }

  /** `'/'.join([cdn_root, version, rel_path])`. */
  function Url(cdn: string, version: string, rel: string): (r: string)
    ensures r == cdn + "/" + version + "/" + rel
  {
    assert [cdn, version, rel][1..] == [version, rel] && [version, rel][1..] == [rel];
    assert JoinWith([version, rel], "/") == version + "/" + rel;
    JoinWith([cdn, version, rel], "/")
  }

  /** The work-list entry for one manifest line. */
  function Info(args: Args, fs: Fs, record: Option<string>, version: string, mode: Mode, entry: (string, string)): (r: FileInfo)
    ensures KeyOf(r) == Key(version, mode) && r.sha256 == entry.1
    ensures r.urlPath == args.cdnRoot + "/" + version + "/" + entry.0
    ensures var dir := SwappedPath(fs, RootOf(args, mode), record, version);
      && |dir| <= |r.localPath| && r.localPath[..|dir|] == dir
      && (CleanPath(entry.0) ==> JoinWith(r.localPath[|dir|..], "/") == entry.0)
  {
    var dir := SwappedPath(fs, RootOf(args, mode), record, version);
    var r := FileInfo(version, mode, Url(args.cdnRoot, version, entry.0), dir + PathParts(entry.0), entry.1);
    assert r.localPath[..|dir|] == dir && r.localPath[|dir|..] == PathParts(entry.0);
    if CleanPath(entry.0) then PathPartsJoin(entry.0); r else r
  }

  /** The list comprehension of one (version, mode): one entry per manifest line, in order. */
  function Block(args: Args, fs: Fs, record: Option<string>, version: string, mode: Mode, entries: seq<(string, string)>)
    : (r: seq<FileInfo>)
    ensures |r| == |entries|
    ensures forall i :: 0 <= i < |entries| ==> r[i] == Info(args, fs, record, version, mode, entries[i])
  {
    seq(|entries|, i requires 0 <= i < |entries| => Info(args, fs, record, version, mode, entries[i]))
  }

  /** The tallies and the work list. */
  datatype FileListOut = FileListOut(sizes: SizeDict, files: seq<FileInfo>)

  /** The inner loop over the modes of one version. */
  function GatherModes(args: Args, fs: Fs, record: Option<string>, version: string, m: Manifest, modes: seq<Mode>, acc: FileListOut)
    : (r: FileListOut)
    ensures forall k :: k in acc.sizes ==> k in r.sizes
    ensures forall mode :: mode in modes ==> Key(version, mode) in r.sizes
    ensures |r.files| >= |acc.files|
    decreases |modes|
  {
    if |modes| == 0 then acc
    else
      var mode := modes[0];
      var acc' := FileListOut(acc.sizes[Key(version, mode) := Tally(0, 0, SizeOf(m, mode))],
                              acc.files + Block(args, fs, record, version, mode, Entries(m, mode)));
      GatherModes(args, fs, record, version, m, modes[1..], acc')
  }

  /** The outer loop over the selected versions; a name the manifest lacks raises `KeyError`. */
  function Gather(args: Args, fs: Fs, record: Option<string>, hd: HashDict, versions: seq<string>, modes: seq<Mode>, acc: FileListOut)
    : (r: Result<FileListOut>)
    ensures r.Failure? <==> exists v :: v in versions && v !in Names(hd)
    decreases |versions|
  {
    if |versions| == 0 then Success(acc)
    else
      assert forall v :: v in versions <==> v == versions[0] || v in versions[1..];
      match Lookup(hd, versions[0])
      case None => Failure(KeyMissing)
      case Some(m) => Gather(args, fs, record, hd, versions[1..], modes, GatherModes(args, fs, record, versions[0], m, modes, acc))
  }

  /** What `compile_file_list` leaves: the manifest (written back when `updated`) and, unless it raised, the list. */
  datatype Compiled = Compiled(hd: HashDict, updated: bool, list: Result<FileListOut>)

  function SelectedVersions(arg: VersionArg, hd: HashDict): seq<string> {
    if arg.AllVersions? then Names(hd) else [arg.name]
  }

  /**
   * `compile_file_list`: normalise the manifest, then for every selected
   * version and mode reset its tally and list its files. `sizes` is the
   * handler's tally dictionary before the call.
   */
  function CompileFileList(args: Args, fs: Fs, record: Option<string>, hd: HashDict, versions: seq<string>, sizes: SizeDict)
    : (r: Compiled)
    ensures r.hd == Normalise(hd, versions).hd && r.updated == Normalise(hd, versions).updated
    ensures r.list.Failure? <==> args.cacheVersion.OneVersion? && args.cacheVersion.name !in Names(r.hd)
  {
    var n := Normalise(hd, versions);
    var vs := SelectedVersions(args.cacheVersion, n.hd);
    assert args.cacheVersion.AllVersions? ==> forall v :: v in vs ==> v in Names(n.hd);
    Compiled(n.hd, n.updated, Gather(args, fs, record, n.hd, vs, Modes(args.cacheMode), FileListOut(sizes, [])))
  }

  /** `f` is the work-list entry of one line of `m`'s table for `f`'s mode. */
  ghost predicate FromEntries(args: Args, fs: Fs, record: Option<string>, m: Manifest, f: FileInfo) {
    exists e :: e in Entries(m, f.mode) && f == Info(args, fs, record, f.version, f.mode, e)
  }

  lemma AppendNil<T>(a: seq<T>)
    ensures a + [] == a && [] + a == a
  {
  }

  lemma AppendAssoc<T>(a: seq<T>, b: seq<T>, c: seq<T>)
    ensures (a + b) + c == a + (b + c)
  {
  }

  /** The entries the mode loop of one version appends: the blocks of its modes, in loop order. */
  function ModeBlocks(args: Args, fs: Fs, record: Option<string>, version: string, m: Manifest, modes: seq<Mode>): seq<FileInfo>
    decreases |modes|
  {
    if |modes| == 0 then []
    else Block(args, fs, record, version, modes[0], Entries(m, modes[0])) + ModeBlocks(args, fs, record, version, m, modes[1..])
  }

  /** The number of manifest lines of `m` over `modes`. */
  function ModeCount(m: Manifest, modes: seq<Mode>): nat
    decreases |modes|
  {
    if |modes| == 0 then 0 else |Entries(m, modes[0])| + ModeCount(m, modes[1..])
  }

  /** The entries of the whole list: for each selected version in order, the blocks of its modes. */
  function VersionBlocks(args: Args, fs: Fs, record: Option<string>, hd: HashDict, vs: seq<string>, ms: seq<Mode>): seq<FileInfo>
    decreases |vs|
  {
    if |vs| == 0 then []
    else
      var here := match Lookup(hd, vs[0]) case None => [] case Some(m) => ModeBlocks(args, fs, record, vs[0], m, ms);
      here + VersionBlocks(args, fs, record, hd, vs[1..], ms)
  }

  /** The number of manifest lines over the selected versions and modes. */
  function EntryCount(hd: HashDict, vs: seq<string>, ms: seq<Mode>): nat
    decreases |vs|
  {
    if |vs| == 0 then 0
    else
      var here := match Lookup(hd, vs[0]) case None => 0 case Some(m) => ModeCount(m, ms);
      here + EntryCount(hd, vs[1..], ms)
  }

  /** The mode loop appends exactly the blocks of its modes, one entry per manifest line. */
  lemma {:induction false} GatherModesFiles(args: Args, fs: Fs, record: Option<string>, version: string, m: Manifest,
                                            modes: seq<Mode>, acc: FileListOut)
    ensures GatherModes(args, fs, record, version, m, modes, acc).files == acc.files + ModeBlocks(args, fs, record, version, m, modes)
    decreases |modes|
  {
    if |modes| == 0 {
      AppendNil(acc.files);
    } else {
      var mode := modes[0];
      var b := Block(args, fs, record, version, mode, Entries(m, mode));
      var acc' := FileListOut(acc.sizes[Key(version, mode) := Tally(0, 0, SizeOf(m, mode))], acc.files + b);
      GatherModesFiles(args, fs, record, version, m, modes[1..], acc');
      AppendAssoc(acc.files, b, ModeBlocks(args, fs, record, version, m, modes[1..]));
    }
  }

  lemma {:induction false} ModeBlocksLength(args: Args, fs: Fs, record: Option<string>, version: string, m: Manifest, modes: seq<Mode>)
    ensures |ModeBlocks(args, fs, record, version, m, modes)| == ModeCount(m, modes)
    decreases |modes|
  {
    if |modes| > 0 {
      ModeBlocksLength(args, fs, record, version, m, modes[1..]);
    }
  }

  /** Over all selected versions the loops append exactly their blocks, in order. */
  lemma {:induction false} GatherFiles(args: Args, fs: Fs, record: Option<string>, hd: HashDict, vs: seq<string>,
                                       ms: seq<Mode>, acc: FileListOut)
    requires Gather(args, fs, record, hd, vs, ms, acc).Success?
    ensures Gather(args, fs, record, hd, vs, ms, acc).value.files == acc.files + VersionBlocks(args, fs, record, hd, vs, ms)
    decreases |vs|
  {
    if |vs| == 0 {
      AppendNil(acc.files);
    } else {
      var m := Lookup(hd, vs[0]).value;
      var acc1 := GatherModes(args, fs, record, vs[0], m, ms, acc);
      GatherModesFiles(args, fs, record, vs[0], m, ms, acc);
      GatherFiles(args, fs, record, hd, vs[1..], ms, acc1);
      AppendAssoc(acc.files, ModeBlocks(args, fs, record, vs[0], m, ms), VersionBlocks(args, fs, record, hd, vs[1..], ms));
    }
  }

  lemma {:induction false} VersionBlocksLength(args: Args, fs: Fs, record: Option<string>, hd: HashDict, vs: seq<string>, ms: seq<Mode>)
    ensures |VersionBlocks(args, fs, record, hd, vs, ms)| == EntryCount(hd, vs, ms)
    decreases |vs|
  {
    if |vs| > 0 {
      VersionBlocksLength(args, fs, record, hd, vs[1..], ms);
      if Lookup(hd, vs[0]).Some? {
        ModeBlocksLength(args, fs, record, vs[0], Lookup(hd, vs[0]).value, ms);
      }
    }
  }

  /** The mode loop of one version gives each of its keys a fresh tally and leaves every other tally alone. */
  lemma {:induction false} GatherModesSizes(args: Args, fs: Fs, record: Option<string>, version: string, m: Manifest,
                                            modes: seq<Mode>, acc: FileListOut)
    ensures var r := GatherModes(args, fs, record, version, m, modes, acc);
      && (forall k :: k in r.sizes <==> k in acc.sizes || (k.version == version && k.mode in modes))
      && (forall mode :: mode in modes ==> r.sizes[Key(version, mode)] == Tally(0, 0, SizeOf(m, mode)))
      && (forall k :: k in acc.sizes && !(k.version == version && k.mode in modes) ==> r.sizes[k] == acc.sizes[k])
    decreases |modes|
  {
    if |modes| > 0 {
      var mode := modes[0];
      var b := Block(args, fs, record, version, mode, Entries(m, mode));
      var acc' := FileListOut(acc.sizes[Key(version, mode) := Tally(0, 0, SizeOf(m, mode))], acc.files + b);
      GatherModesSizes(args, fs, record, version, m, modes[1..], acc');
      assert forall md :: md in modes <==> md == mode || md in modes[1..];
    }
  }

  /** Each entry of a block comes from one manifest line, and each line gives its entry. */
  lemma BlockFacts(args: Args, fs: Fs, record: Option<string>, version: string, mode: Mode, m: Manifest)
    ensures var b := Block(args, fs, record, version, mode, Entries(m, mode));
      && (forall f :: f in b ==> f.version == version && f.mode == mode && FromEntries(args, fs, record, m, f))
      && (forall e :: e in Entries(m, mode) ==> Info(args, fs, record, version, mode, e) in b)
  {
    var es := Entries(m, mode);
    var b := Block(args, fs, record, version, mode, es);
    forall f | f in b
      ensures f.version == version && f.mode == mode && FromEntries(args, fs, record, m, f)
    {
      var i :| 0 <= i < |b| && b[i] == f;
      assert es[i] in es;
    }
    forall e | e in es
      ensures Info(args, fs, record, version, mode, e) in b
    {
      var j :| 0 <= j < |es| && es[j] == e;
      assert b[j] == Info(args, fs, record, version, mode, e);
    }
  }

  /** Whatever the mode loop appends is the entry of a line of this version's manifest, for one of the modes. */
  lemma {:induction false} GatherModesSound(args: Args, fs: Fs, record: Option<string>, version: string, m: Manifest,
                                            modes: seq<Mode>, acc: FileListOut)
    ensures forall f :: f in GatherModes(args, fs, record, version, m, modes, acc).files ==>
      f in acc.files || (f.version == version && f.mode in modes && FromEntries(args, fs, record, m, f))
    decreases |modes|
  {
    if |modes| > 0 {
      var mode := modes[0];
      var b := Block(args, fs, record, version, mode, Entries(m, mode));
      var acc' := FileListOut(acc.sizes[Key(version, mode) := Tally(0, 0, SizeOf(m, mode))], acc.files + b);
      GatherModesSound(args, fs, record, version, m, modes[1..], acc');
      BlockFacts(args, fs, record, version, mode, m);
      assert forall md :: md in modes[1..] ==> md in modes;
    }
  }

  /** Every line of this version's manifest, for every mode of the loop, gets its entry. */
  lemma {:induction false} GatherModesComplete(args: Args, fs: Fs, record: Option<string>, version: string, m: Manifest,
                                               modes: seq<Mode>, acc: FileListOut)
    ensures var r := GatherModes(args, fs, record, version, m, modes, acc);
      && (forall f :: f in acc.files ==> f in r.files)
      && (forall mode, e :: mode in modes && e in Entries(m, mode) ==> Info(args, fs, record, version, mode, e) in r.files)
    decreases |modes|
  {
    if |modes| > 0 {
      var mode := modes[0];
      var b := Block(args, fs, record, version, mode, Entries(m, mode));
      var acc' := FileListOut(acc.sizes[Key(version, mode) := Tally(0, 0, SizeOf(m, mode))], acc.files + b);
      GatherModesComplete(args, fs, record, version, m, modes[1..], acc');
      BlockFacts(args, fs, record, version, mode, m);
      assert forall f :: f in acc.files ==> f in acc'.files;
      assert forall md :: md in modes ==> md == mode || md in modes[1..];
    }
  }

  /** Over all selected versions: fresh tallies for exactly the selected keys, every other tally kept. */
  lemma {:induction false} GatherSizes(args: Args, fs: Fs, record: Option<string>, hd: HashDict, vs: seq<string>,
                                       ms: seq<Mode>, acc: FileListOut)
    requires Gather(args, fs, record, hd, vs, ms, acc).Success?
    ensures var out := Gather(args, fs, record, hd, vs, ms, acc).value;
      && (forall k :: k in out.sizes <==> k in acc.sizes || (k.version in vs && k.mode in ms))
      && (forall k :: k in out.sizes && k.version in vs && k.mode in ms ==>
            Lookup(hd, k.version).Some? && out.sizes[k] == Tally(0, 0, SizeOf(Lookup(hd, k.version).value, k.mode)))
      && (forall k :: k in acc.sizes && !(k.version in vs && k.mode in ms) ==> out.sizes[k] == acc.sizes[k])
    decreases |vs|
  {
    if |vs| > 0 {
      var m := Lookup(hd, vs[0]).value;
      var acc1 := GatherModes(args, fs, record, vs[0], m, ms, acc);
      GatherModesSizes(args, fs, record, vs[0], m, ms, acc);
      GatherSizes(args, fs, record, hd, vs[1..], ms, acc1);
      assert forall v :: v in vs <==> v == vs[0] || v in vs[1..];
    }
  }

  /** Every listed entry belongs to a selected version and mode and comes from one line of its manifest. */
  lemma {:induction false} GatherSound(args: Args, fs: Fs, record: Option<string>, hd: HashDict, vs: seq<string>,
                                       ms: seq<Mode>, acc: FileListOut)
    requires Gather(args, fs, record, hd, vs, ms, acc).Success?
    ensures forall f :: f in Gather(args, fs, record, hd, vs, ms, acc).value.files ==>
      || f in acc.files
      || (f.version in vs && f.mode in ms && Lookup(hd, f.version).Some?
          && FromEntries(args, fs, record, Lookup(hd, f.version).value, f))
    decreases |vs|
  {
    if |vs| > 0 {
      var m := Lookup(hd, vs[0]).value;
      var acc1 := GatherModes(args, fs, record, vs[0], m, ms, acc);
      GatherModesSound(args, fs, record, vs[0], m, ms, acc);
      GatherSound(args, fs, record, hd, vs[1..], ms, acc1);
      assert forall v :: v in vs[1..] ==> v in vs;
    }
  }

  /** Every line of every selected version's manifest, for every selected mode, gets its entry. */
  lemma {:induction false} GatherComplete(args: Args, fs: Fs, record: Option<string>, hd: HashDict, vs: seq<string>,
                                          ms: seq<Mode>, acc: FileListOut)
    requires Gather(args, fs, record, hd, vs, ms, acc).Success?
    ensures var out := Gather(args, fs, record, hd, vs, ms, acc).value;
      && (forall f :: f in acc.files ==> f in out.files)
      && (forall v, mode, e :: v in vs && mode in ms && Lookup(hd, v).Some? && e in Entries(Lookup(hd, v).value, mode) ==>
            Info(args, fs, record, v, mode, e) in out.files)
    decreases |vs|
  {
    if |vs| > 0 {
      var m := Lookup(hd, vs[0]).value;
      var acc1 := GatherModes(args, fs, record, vs[0], m, ms, acc);
      GatherModesComplete(args, fs, record, vs[0], m, ms, acc);
      GatherComplete(args, fs, record, hd, vs[1..], ms, acc1);
      assert forall v :: v in vs ==> v == vs[0] || v in vs[1..];
    }
  }

  /**
   * `compile_file_list` when it does not raise: every selected (version,
   * mode) tally is reset to zero counts and the manifest's size, and every
   * other tally is kept.
   */
  lemma CompileFileListSizes(args: Args, fs: Fs, record: Option<string>, hd: HashDict, versions: seq<string>, sizes: SizeDict)
    requires CompileFileList(args, fs, record, hd, versions, sizes).list.Success?
    ensures var c := CompileFileList(args, fs, record, hd, versions, sizes);
      var out := c.list.value;
      var vs := SelectedVersions(args.cacheVersion, c.hd);
      var ms := Modes(args.cacheMode);
      && (forall k :: k in out.sizes <==> k in sizes || (k.version in vs && k.mode in ms))
      && (forall k :: k in out.sizes && k.version in vs && k.mode in ms ==>
            Lookup(c.hd, k.version).Some? && out.sizes[k] == Tally(0, 0, SizeOf(Lookup(c.hd, k.version).value, k.mode)))
      && (forall k :: k in sizes && !(k.version in vs && k.mode in ms) ==> out.sizes[k] == sizes[k])
  {
    var c := CompileFileList(args, fs, record, hd, versions, sizes);
    GatherSizes(args, fs, record, c.hd, SelectedVersions(args.cacheVersion, c.hd), Modes(args.cacheMode), FileListOut(sizes, []));
  }

  /**
   * Every entry of the list belongs to a selected version and mode, comes
   * from one line of that version's manifest, and has its tally, so no
   * later `check_file_hash` of the list meets a missing key.
   */
  lemma CompileFileListSound(args: Args, fs: Fs, record: Option<string>, hd: HashDict, versions: seq<string>, sizes: SizeDict)
    requires CompileFileList(args, fs, record, hd, versions, sizes).list.Success?
    ensures var c := CompileFileList(args, fs, record, hd, versions, sizes);
      var out := c.list.value;
      forall f :: f in out.files ==>
        && f.version in SelectedVersions(args.cacheVersion, c.hd) && f.mode in Modes(args.cacheMode)
        && KeyOf(f) in out.sizes
        && Lookup(c.hd, f.version).Some? && FromEntries(args, fs, record, Lookup(c.hd, f.version).value, f)
  {
    var c := CompileFileList(args, fs, record, hd, versions, sizes);
    var vs := SelectedVersions(args.cacheVersion, c.hd);
    var ms := Modes(args.cacheMode);
    GatherSizes(args, fs, record, c.hd, vs, ms, FileListOut(sizes, []));
    GatherSound(args, fs, record, c.hd, vs, ms, FileListOut(sizes, []));
  }

  /**
   * Every line of every selected version's manifest, for every selected
   * mode, has its entry in the list; more precisely the list is, in order,
   * one entry per manifest line, version by version and mode by mode, and
   * nothing else.
   */
  lemma CompileFileListComplete(args: Args, fs: Fs, record: Option<string>, hd: HashDict, versions: seq<string>, sizes: SizeDict)
    requires CompileFileList(args, fs, record, hd, versions, sizes).list.Success?
    ensures var c := CompileFileList(args, fs, record, hd, versions, sizes);
      forall v, mode, e ::
        && v in SelectedVersions(args.cacheVersion, c.hd) && mode in Modes(args.cacheMode)
        && Lookup(c.hd, v).Some? && e in Entries(Lookup(c.hd, v).value, mode)
        ==> Info(args, fs, record, v, mode, e) in c.list.value.files
    ensures var c := CompileFileList(args, fs, record, hd, versions, sizes);
      var vs := SelectedVersions(args.cacheVersion, c.hd);
      var ms := Modes(args.cacheMode);
      && c.list.value.files == VersionBlocks(args, fs, record, c.hd, vs, ms)
      && |c.list.value.files| == EntryCount(c.hd, vs, ms)
  {
    var c := CompileFileList(args, fs, record, hd, versions, sizes);
    var vs := SelectedVersions(args.cacheVersion, c.hd);
    var ms := Modes(args.cacheMode);
    GatherComplete(args, fs, record, c.hd, vs, ms, FileListOut(sizes, []));
    GatherFiles(args, fs, record, c.hd, vs, ms, FileListOut(sizes, []));
    VersionBlocksLength(args, fs, record, c.hd, vs, ms);
    AppendNil(VersionBlocks(args, fs, record, c.hd, vs, ms));
  }

  /** With `--cache-version all` nothing raises and every `versions.json` name is selected. */
  lemma CompileAllVersions(args: Args, fs: Fs, record: Option<string>, hd: HashDict, versions: seq<string>, sizes: SizeDict)
    requires args.cacheVersion.AllVersions?
    ensures var c := CompileFileList(args, fs, record, hd, versions, sizes);
      && c.list.Success?
      && forall v :: v in versions ==> v in SelectedVersions(args.cacheVersion, c.hd)
  {
  }

  /** Every list entry's URL is the CDN root, its version and the manifest's relative path joined by '/'. */
  lemma InfoUrl(args: Args, fs: Fs, record: Option<string>, version: string, mode: Mode, e: (string, string))
    ensures var f := Info(args, fs, record, version, mode, e);
      && StartsWith(f.urlPath, args.cdnRoot + "/" + version + "/")
      && f.urlPath[|args.cdnRoot + "/" + version + "/"|..] == e.0
      && f.sha256 == e.1 && KeyOf(f) == Key(version, mode)
  {
    var pre := args.cdnRoot + "/" + version + "/";
    assert Info(args, fs, record, version, mode, e).urlPath == pre + e.0;
  }
}

=== FILE: filesystem.dfy ===
/**
 * The local disk as the cache handler sees it: a finite map from paths to
 * files or directories, with the few pathlib operations the handler uses.
 */
module FileSystem {
  import opened Wrappers

  type Byte = bv8

  /** A path as its list of parts; `|p|` is pathlib's `len(p.parts)`. */
  type Path = seq<string>

  /**
   * A directory entry with its permissions as the handler meets them:
   * `readable` and `writable` say whether opening the file with 'rb' or 'wb'
   * succeeds, and `locked` whether `unlink` or `rmdir` raises
   * `PermissionError` (a file in use or protected, a directory the user may
   * not remove).
   */
  datatype Node = File(content: seq<Byte>, readable: bool, writable: bool, locked: bool) | Dir(locked: bool)

  type Fs = map<Path, Node>

  /** pathlib's `parent`: the anchor (a one-part path) is its own parent. */
  function Parent(p: Path): (r: Path)
    ensures |p| <= 1 ==> r == p
    ensures |p| > 1 ==> |r| == |p| - 1 && forall k :: 0 <= k < |r| ==> r[k] == p[k]
  {
    if |p| <= 1 then p else p[..|p| - 1]
  }

  predicate IsDir(fs: Fs, p: Path) { p in fs && fs[p].Dir? }

  predicate IsFile(fs: Fs, p: Path) { p in fs && fs[p].File? }

  /** Opening `p` for reading succeeds. */
  predicate Readable(fs: Fs, p: Path) { IsFile(fs, p) && fs[p].readable }

  predicate IsChild(c: Path, p: Path) { |c| == |p| + 1 && c[..|p|] == p }

  /** `any(p.iterdir())`: the directory lists at least one entry. */
  predicate HasChild(fs: Fs, p: Path) { exists c :: c in fs && IsChild(c, p) }

  /** Every entry hangs below the anchor under an existing directory. */
  ghost predicate WellFormed(fs: Fs) {
    forall p :: p in fs ==> |p| >= 1 && (|p| >= 2 ==> IsDir(fs, p[..|p| - 1]))
  }

  /** Opening `p` with mode 'wb' succeeds: its directory exists and `p` is absent or a writable file. */
  predicate CanWrite(fs: Fs, p: Path) {
    && |p| >= 2
    && IsDir(fs, Parent(p))
    && (p !in fs || (fs[p].File? && fs[p].writable))
  }

  /**
   * Writing a whole file: the old contents, if any, are replaced and the
   * file keeps its permissions; a new file can be read, written and removed.
   */
  function Write(fs: Fs, p: Path, data: seq<Byte>): (r: Fs)
    requires CanWrite(fs, p)
    ensures IsFile(r, p) && r[p].content == data
    ensures Readable(r, p) <==> p !in fs || fs[p].readable
    ensures CanWrite(r, p)
    ensures forall q :: q != p ==> (q in r <==> q in fs) && (q in r ==> r[q] == fs[q])
  {
    fs[p := if p in fs then fs[p].(content := data) else File(data, true, true, false)]
  }

  /** `p.mkdir(parents=True, exist_ok=True)`. */
  function MkdirAll(fs: Fs, p: Path): (r: Result<Fs>)
    ensures r.Success? <==> forall k :: 1 <= k <= |p| ==> !IsFile(fs, p[..k])
    ensures r.Success? ==> forall k :: 1 <= k <= |p| ==> IsDir(r.value, p[..k])
    ensures r.Success? ==> forall q :: q in fs ==> q in r.value && r.value[q] == fs[q]
    ensures r.Success? ==> forall q :: q in r.value && q !in fs ==> 1 <= |q| <= |p| && q == p[..|q|]
    ensures r.Failure? ==> r.error == FileExists
    decreases |p|
  {
    if |p| == 0 then Success(fs)
    else
      var up := p[..|p| - 1];
      assert forall k :: 1 <= k <= |up| ==> up[..k] == p[..k];
      match MkdirAll(fs, up)
      case Failure(e) => Failure(e)
      case Success(fs1) =>
        assert p[..|p|] == p;
        if p !in fs1 then Success(fs1[p := Dir(false)])
        else if fs1[p].Dir? then Success(fs1)
        else Failure(FileExists)
  }

  /** Creating missing directories keeps a well-formed tree well formed. */
  lemma {:induction false} MkdirAllWellFormed(fs: Fs, p: Path)
    requires WellFormed(fs)
    requires |p| >= 1 && IsDir(fs, p[..1])
    requires MkdirAll(fs, p).Success?
    ensures WellFormed(MkdirAll(fs, p).value)
  {
    var r := MkdirAll(fs, p).value;
    forall q | q in r
      ensures |q| >= 1 && (|q| >= 2 ==> IsDir(r, q[..|q| - 1]))
    {
      if q !in fs {
        assert 1 <= |q| <= |p| && q == p[..|q|];
        if |q| >= 2 {
          assert q[..|q| - 1] == p[..|q| - 1];
        }
      } else if |q| >= 2 {
        assert IsDir(fs, q[..|q| - 1]);
      }
    }
  }

  /** `p.unlink()` or `p.rmdir()` raises `PermissionError`. */
  predicate Locked(fs: Fs, p: Path) { p in fs && fs[p].locked }

  /** `p.unlink()` on a regular file it may remove. */
  function Unlink(fs: Fs, p: Path): (r: Fs)
    requires IsFile(fs, p) && !Locked(fs, p)
    ensures r.Keys == fs.Keys - {p}
    ensures forall q :: q in r ==> r[q] == fs[q]
  {
    fs - {p}
  }

  /** `p.rmdir()` on an empty directory it may remove. */
  function Rmdir(fs: Fs, p: Path): (r: Fs)
    requires IsDir(fs, p) && !HasChild(fs, p) && !Locked(fs, p)
    ensures r.Keys == fs.Keys - {p}
    ensures forall q :: q in r ==> r[q] == fs[q]
  {
    fs - {p}
  }

  /** Removing a file or an empty directory keeps the tree well formed. */
  lemma RemoveLeafWellFormed(fs: Fs, p: Path)
    requires WellFormed(fs)
    requires IsFile(fs, p) || !HasChild(fs, p)
    ensures WellFormed(fs - {p})
  {
    var r := fs - {p};
    forall q | q in r && |q| >= 2
      ensures IsDir(r, q[..|q| - 1])
    {
      assert IsDir(fs, q[..|q| - 1]);
      if q[..|q| - 1] == p {
        assert IsChild(q, p);
      }
    }
  }
}

=== FILE: gameinfo.dfy ===
/**
 * `setGameInfo` and `prepConnection` of the launcher page in its three
 * revisions: pick the server and its game version, optionally swap the
 * cache, and write the small files the game plugin reads next to the page.
 */
module GameInfo {
  import opened Wrappers
  import opened Strings
  import opened Servers
  import opened CacheSwap

  /** The files beside the page, by name. */
  type ConfigFiles = map<string, string>

  const ASSET_INFO: string := "assetInfo.php"
  const LOGIN_INFO: string := "loginInfo.php"
  const RANK_URL: string := "rankurl.txt"
  const SPONSOR: string := "sponsor.php"
  const IMAGES: string := "images.php"

  const DEFAULT_PORT: string := "23000"
  const WELCOME_IMAGE: string := "assets/img/welcome.png"
  const IMAGE_DIR: string := "assets/img/"

  /** `endpoint.replace("https://", "http://")`: only the first occurrence is rewritten. */
  function HttpEndpoint(endpoint: string): (r: string)
    ensures StartsWith(endpoint, "https://") ==> r == "http://" + endpoint[8..]
    ensures |r| == if IndexOf(endpoint, "https://") == -1 then |endpoint| else |endpoint| - 1
  {
    assert StartsWith(endpoint, "https://") ==> OccursAt(endpoint, "https://", 0);
    ReplaceFirst(endpoint, "https://", "http://")
  }

  lemma HttpEndpointRewrite(e: string)
    ensures StartsWith(e, "https://") ==> HttpEndpoint(e) == "http://" + e[8..]
    ensures (forall i :: 0 <= i <= |e| ==> !OccursAt(e, "https://", i)) ==> HttpEndpoint(e) == e
  {
    if StartsWith(e, "https://") {
      assert OccursAt(e, "https://", 0);
    }
  }

  /**
   * The endpoint-related files: with an endpoint the three are derived from
   * its http form; without one they are reset only when `rankurl.txt`
   * exists, and that file is deleted.
   */
  function EndpointFiles(files: ConfigFiles, endpoint: Option<string>): (r: ConfigFiles)
    ensures forall n :: n !in {RANK_URL, SPONSOR, IMAGES} ==> (n in r <==> n in files) && (n in r ==> r[n] == files[n])
    ensures endpoint.Some? ==>
      var http := HttpEndpoint(endpoint.value);
      && RANK_URL in r && SPONSOR in r && IMAGES in r
      && r[RANK_URL] == http + "getranks"
      && r[SPONSOR] == http + "upsell/sponsor.png"
      && r[IMAGES] == http + "upsell/"
    ensures endpoint.None? && RANK_URL !in files ==> r == files
    ensures endpoint.None? && RANK_URL in files ==>
      RANK_URL !in r && SPONSOR in r && IMAGES in r && r[SPONSOR] == WELCOME_IMAGE && r[IMAGES] == IMAGE_DIR
  {
    match endpoint
    case Some(e) =>
      var http := HttpEndpoint(e);
      files[RANK_URL := http + "getranks"][SPONSOR := http + "upsell/sponsor.png"][IMAGES := http + "upsell/"]
    case None =>
      if RANK_URL in files then (files - {RANK_URL})[SPONSOR := WELCOME_IMAGE][IMAGES := IMAGE_DIR]
      else files
  }

  /** Deriving the endpoint files again for the same server changes nothing more. */
  lemma EndpointFilesIdempotent(files: ConfigFiles, endpoint: Option<string>)
    ensures EndpointFiles(EndpointFiles(files, endpoint), endpoint) == EndpointFiles(files, endpoint)
  {
  }

  /**
   * Writing a file the endpoint step does not touch commutes with that step:
   * `assetInfo.php` written before the endpoint files ends up as if written after.
   */
  lemma EndpointFilesUpdate(files: ConfigFiles, endpoint: Option<string>, n: string, v: string)
    requires n !in {RANK_URL, SPONSOR, IMAGES}
    ensures EndpointFiles(files[n := v], endpoint) == EndpointFiles(files, endpoint)[n := v]
  {
    match endpoint
    case Some(e) =>
    case None =>
      if RANK_URL in files {
        assert (files[n := v] - {RANK_URL}) == (files - {RANK_URL})[n := v];
      }
  }

  /** The server address split at the first ':'. */
  datatype Address = Address(host: string, port: string)

  /** The address parsing of `setGameInfo`: host before the first ':', port after it, 23000 without one. */
  function SplitAddress(ip: string): (r: Address)
    ensures ':' in ip ==> r.host + ":" + r.port == ip && ':' !in r.host
    ensures ':' !in ip ==> r == Address(ip, DEFAULT_PORT)
  {
    var i := IndexOf(ip, ":");
    if i > -1 then
      forall j | 0 <= j < i
        ensures ip[j] != ':'
      {
        assert !OccursAt(ip, ":", j);
        assert ip[j..j + 1] == [ip[j]];
      }
      assert ip[i..i + 1] == ":";
      assert ip == ip[..i] + ":" + ip[i + 1..];
      Address(ip[..i], ip[i + 1..])
    else
      forall j | 0 <= j < |ip|
        ensures ip[j] != ':'
      {
        assert !OccursAt(ip, ":", j);
        assert ip[j..j + 1] == [ip[j]];
      }
      Address(ip, DEFAULT_PORT)
  }

  /** Joining a host without ':' to a port and splitting again gives both back. */
  lemma SplitAddressRoundTrip(host: string, port: string)
    requires ':' !in host
    ensures SplitAddress(host + ":" + port) == Address(host, port)
  {
    var ip := host + ":" + port;
    assert ip[|host|] == ':';
  }

  /** The DNS step: an address the pattern `^[0-9.]+$` accepts is used as it is, any other is looked up. */
  function Resolve(host: string, dns: string -> Option<string>): (r: string)
    ensures MatchesDigitsAndDots(host) ==> r == host
    ensures r == host || dns(host) == Some(r)
    ensures dns(host).None? ==> r == host
  {
    if MatchesDigitsAndDots(host) then host
    else match dns(host)
      case Some(a) => a
      case None => host
  }

  /** A numeric address never reaches DNS: any two resolvers give the same answer, the address itself. */
  lemma ResolveNumericIgnoresDns(host: string, dns1: string -> Option<string>, dns2: string -> Option<string>)
    requires MatchesDigitsAndDots(host)
    ensures Resolve(host, dns1) == Resolve(host, dns2) == host
  {
  }

  /** A name that is not numeric is replaced by whatever address the lookup gives. */
  lemma ResolveUsesDns(host: string, dns: string -> Option<string>, addr: string)
    requires !MatchesDigitsAndDots(host) && dns(host) == Some(addr)
    ensures Resolve(host, dns) == addr
  {
  }

  /** What `prepConnection` writes to `loginInfo.php`. */
  function LoginInfo(ip: string, dns: string -> Option<string>): (r: string)
    ensures MatchesDigitsAndDots(SplitAddress(ip).host) ==> r == (if ':' in ip then ip else ip + ":" + DEFAULT_PORT)
  {
    var a := SplitAddress(ip);
    Resolve(a.host, dns) + ":" + a.port
  }

  /** `array.filter(pred)[0]`: the first element the predicate accepts, or None. */
  function FindFirst<T>(xs: seq<T>, p: T -> bool): (r: Option<T>)
    ensures r.None? <==> forall i :: 0 <= i < |xs| ==> !p(xs[i])
    ensures r.Some? ==> exists i :: 0 <= i < |xs| && xs[i] == r.value && p(xs[i]) && forall j :: 0 <= j < i ==> !p(xs[j])
    decreases |xs|
  {
    if |xs| == 0 then None
    else if p(xs[0]) then Some(xs[0])
    else
      var r := FindFirst(xs[1..], p);
      assert forall i :: 1 <= i < |xs| ==> xs[i] == xs[1..][i - 1];
      assert r.Some? ==> exists i :: 1 <= i < |xs| && xs[i] == r.value && p(xs[i]) && forall j :: 0 <= j < i ==> !p(xs[j]) by {
        if r.Some? {
          var i :| 0 <= i < |xs[1..]| && xs[1..][i] == r.value && p(xs[1..][i]) && forall j :: 0 <= j < i ==> !p(xs[1..][j]);
          assert xs[i + 1] == r.value;
        }
      }
      r
  }

  /** The first server with the uuid. */
  function FindServer(servers: seq<Server>, uuid: string): (r: Option<Server>)
    ensures r.None? <==> forall i :: 0 <= i < |servers| ==> servers[i].uuid != uuid
    ensures r.Some? ==> r.value in servers && r.value.uuid == uuid
    ensures r.Some? ==> exists i :: 0 <= i < |servers| && servers[i] == r.value && forall j :: 0 <= j < i ==> servers[j].uuid != uuid
  {
    FindFirst(servers, (s: Server) => s.uuid == uuid)
  }

  /** `filter(...)[0]` and `indexOf` agree: both pick the first record with the uuid. */
  lemma FindServerIsIndexOf(servers: seq<Server>, uuid: string)
    ensures var k := IndexOfUuid(servers, uuid);
      FindServer(servers, uuid) == if k == -1 then None else Some(servers[k])
  {
    IndexOfUuidFirst(servers, uuid);
    var r := FindServer(servers, uuid);
    var k := IndexOfUuid(servers, uuid);
    if r.Some? {
      var i :| 0 <= i < |servers| && servers[i] == r.value && forall j :: 0 <= j < i ==> servers[j].uuid != uuid;
      assert k != -1;
      assert servers[k].uuid == uuid;
    }
  }

  /** The first version with the name. */
  function FindVersion(versions: seq<Version>, name: string): (r: Option<Version>)
    ensures r.None? <==> forall i :: 0 <= i < |versions| ==> versions[i].name != name
    ensures r.Some? ==> r.value in versions && r.value.name == name
    ensures r.Some? ==> exists i :: 0 <= i < |versions| && versions[i] == r.value && forall j :: 0 <= j < i ==> versions[j].name != name
  {
    FindFirst(versions, (v: Version) => v.name == name)
  }

  /**
   * Where a launch attempt ended: the cache state, the files beside the
   * page, and whether `launchGame` was reached (an uncaught exception stops
   * `setGameInfo` before it).
   */
  datatype Launch = Launch(cache: SwapState, files: ConfigFiles, launched: bool)

  /** The selected server and its version, when both lookups find one. */
  datatype Selection = Selection(server: Server, version: Version)

  function Select(servers: seq<Server>, versions: seq<Version>, uuid: string): (r: Option<Selection>)
    ensures r.Some? ==> r.value.server in servers && r.value.server.uuid == uuid
    ensures r.Some? ==> r.value.version in versions && r.value.version.name == r.value.server.version
    ensures (forall i :: 0 <= i < |servers| ==> servers[i].uuid != uuid) ==> r.None?
    ensures (exists i :: 0 <= i < |servers| && servers[i].uuid == uuid) && r.None? ==>
      forall j :: 0 <= j < |versions| ==> versions[j].name != FindServer(servers, uuid).value.version
    ensures r.Some? ==> Some(r.value.server) == FindServer(servers, uuid)
    ensures r.Some? ==> Some(r.value.version) == FindVersion(versions, r.value.server.version)
  {
    match FindServer(servers, uuid)
    case None => None
    case Some(server) =>
      match FindVersion(versions, server.version)
      case None => None
      case Some(version) => Some(Selection(server, version))
  }

  /** `setGameInfo` of the newer page: a failing swap is caught and the launch goes on. */
  function SetGameInfo(servers: seq<Server>, versions: seq<Version>, uuid: string, swapping: bool,
                       cache: SwapState, files: ConfigFiles, dns: string -> Option<string>): (r: Launch)
    ensures r.launched <==> Select(servers, versions, uuid).Some?
    ensures !r.launched ==> r == Launch(cache, files, false)
    ensures !swapping ==> r.cache == cache
    ensures r.launched ==> ASSET_INFO in r.files && LOGIN_INFO in r.files
    ensures forall n :: n !in {ASSET_INFO, LOGIN_INFO, RANK_URL, SPONSOR, IMAGES} ==>
      (n in r.files <==> n in files) && (n in r.files ==> r.files[n] == files[n])
  {
    match Select(servers, versions, uuid)
    case None => Launch(cache, files, false)
    case Some(sel) =>
      var cache' := if swapping then PerformCacheSwap(cache, sel.version.name).state else cache;
      var f := EndpointFiles(files[ASSET_INFO := sel.version.url], sel.server.endpoint);
      Launch(cache', f[LOGIN_INFO := LoginInfo(sel.server.ip, dns)], true)
  }

  /** `setGameInfo` of the older page: the inline swap has no `try`, so a failed rename ends the call. */
  function SetGameInfoOld(servers: seq<Server>, versions: seq<Version>, uuid: string, swapping: bool,
                          cache: SwapState, files: ConfigFiles, dns: string -> Option<string>): (r: Launch)
    ensures r.launched ==> Select(servers, versions, uuid).Some?
    ensures Select(servers, versions, uuid).None? ==> r == Launch(cache, files, false)
    ensures !r.launched ==> r.files == files && r.cache.record == cache.record
    ensures !swapping ==> r.cache == cache && (r.launched <==> Select(servers, versions, uuid).Some?)
    ensures r.launched ==> ASSET_INFO in r.files && LOGIN_INFO in r.files
    ensures forall n :: n !in {ASSET_INFO, LOGIN_INFO, RANK_URL, SPONSOR, IMAGES} ==>
      (n in r.files <==> n in files) && (n in r.files ==> r.files[n] == files[n])
  {
    match Select(servers, versions, uuid)
    case None => Launch(cache, files, false)
    case Some(sel) =>
      var sw := OldSwapBlock(cache, sel.version.name, swapping);
      if sw.threw then Launch(sw.state, files, false)
      else
        var f := EndpointFiles(files[ASSET_INFO := sel.version.url], sel.server.endpoint);
        Launch(sw.state, f[LOGIN_INFO := LoginInfo(sel.server.ip, dns)], true)
  }

  /** `setGameInfo` of the earliest page: no swap, and the ip goes to `loginInfo.php` as it is. */
  function SetGameInfoEarliest(servers: seq<Server>, versions: seq<Version>, uuid: string, cache: SwapState, files: ConfigFiles)
    : (r: Launch)
    ensures r.cache == cache
    ensures r.launched <==> Select(servers, versions, uuid).Some?
    ensures !r.launched ==> r.files == files
    ensures r.launched ==> ASSET_INFO in r.files && LOGIN_INFO in r.files
    ensures forall n :: n !in {ASSET_INFO, LOGIN_INFO, RANK_URL, SPONSOR, IMAGES} ==>
      (n in r.files <==> n in files) && (n in r.files ==> r.files[n] == files[n])
  {
    match Select(servers, versions, uuid)
    case None => Launch(cache, files, false)
    case Some(sel) =>
      Launch(cache, EndpointFiles(files[ASSET_INFO := sel.version.url][LOGIN_INFO := sel.server.ip], sel.server.endpoint), true)
  }

  /** A uuid or version that finds nothing stops every revision before anything is written. */
  lemma LookupFailureChangesNothing(servers: seq<Server>, versions: seq<Version>, uuid: string, swapping: bool,
                                    cache: SwapState, files: ConfigFiles, dns: string -> Option<string>)
    requires (forall i :: 0 <= i < |servers| ==> servers[i].uuid != uuid)
          || (forall i :: 0 <= i < |versions| ==> versions[i].name != FindServer(servers, uuid).value.version)
    ensures SetGameInfo(servers, versions, uuid, swapping, cache, files, dns) == Launch(cache, files, false)
    ensures SetGameInfoOld(servers, versions, uuid, swapping, cache, files, dns) == Launch(cache, files, false)
    ensures SetGameInfoEarliest(servers, versions, uuid, cache, files) == Launch(cache, files, false)
  {
  }

  /**
   * The newer page always launches once both lookups succeed, whatever the
   * swap did: the cache is what the swap left, and the files are the
   * endpoint files of the server with the version's url in `assetInfo.php`
   * and the parsed and resolved address in `loginInfo.php`.
   */
  lemma SetGameInfoLaunches(servers: seq<Server>, versions: seq<Version>, uuid: string, swapping: bool,
                            cache: SwapState, files: ConfigFiles, dns: string -> Option<string>)
    requires Select(servers, versions, uuid).Some?
    ensures var sel := Select(servers, versions, uuid).value;
      var r := SetGameInfo(servers, versions, uuid, swapping, cache, files, dns);
      && r.launched
      && r.files == EndpointFiles(files, sel.server.endpoint)[ASSET_INFO := sel.version.url][LOGIN_INFO := LoginInfo(sel.server.ip, dns)]
      && r.cache == (if swapping then PerformCacheSwap(cache, sel.version.name).state else cache)
  {
    var sel := Select(servers, versions, uuid).value;
    EndpointFilesUpdate(files, sel.server.endpoint, ASSET_INFO, sel.version.url);
  }

  /**
   * In the older page a swap rename that throws leaves every file beside
   * the page as it was and `.lastver` unwritten, and the game is not
   * launched; the directories keep the rename that did succeed, if any.
   */
  lemma SetGameInfoOldAborts(servers: seq<Server>, versions: seq<Version>, uuid: string,
                             cache: SwapState, files: ConfigFiles, dns: string -> Option<string>)
    requires Select(servers, versions, uuid).Some?
    requires OldSwapBlock(cache, Select(servers, versions, uuid).value.version.name, true).threw
    ensures var r := SetGameInfoOld(servers, versions, uuid, true, cache, files, dns);
      && !r.launched && r.files == files && r.cache.record == cache.record
      && r.cache == OldSwapBlock(cache, Select(servers, versions, uuid).value.version.name, true).state
  {
    OldSwapRenames(cache, Select(servers, versions, uuid).value.version.name);
  }

  /**
   * When the older swap does not throw, the older page launches too, with
   * the cache its swap left, and writes the same files as the newer page.
   */
  lemma OldAndNewAgreeOnFiles(servers: seq<Server>, versions: seq<Version>, uuid: string, swapping: bool,
                              cache: SwapState, files: ConfigFiles, dns: string -> Option<string>)
    requires Select(servers, versions, uuid).Some?
    requires !OldSwapBlock(cache, Select(servers, versions, uuid).value.version.name, swapping).threw
    ensures var r := SetGameInfoOld(servers, versions, uuid, swapping, cache, files, dns);
      && r.launched
      && r.cache == OldSwapBlock(cache, Select(servers, versions, uuid).value.version.name, swapping).state
      && r.files == SetGameInfo(servers, versions, uuid, swapping, cache, files, dns).files
  {
  }

  /**
   * The earliest page hands the ip string to the game as it is, without
   * parsing or DNS, and writes the same endpoint files as the later ones.
   */
  lemma SetGameInfoEarliestVerbatim(servers: seq<Server>, versions: seq<Version>, uuid: string, cache: SwapState, files: ConfigFiles)
    requires Select(servers, versions, uuid).Some?
    ensures var sel := Select(servers, versions, uuid).value;
      var r := SetGameInfoEarliest(servers, versions, uuid, cache, files);
      && r.launched && r.cache == cache
      && r.files == EndpointFiles(files, sel.server.endpoint)[ASSET_INFO := sel.version.url][LOGIN_INFO := sel.server.ip]
  {
    var sel := Select(servers, versions, uuid).value;
    var e := sel.server.endpoint;
    EndpointFilesUpdate(files[ASSET_INFO := sel.version.url], e, LOGIN_INFO, sel.server.ip);
    EndpointFilesUpdate(files, e, ASSET_INFO, sel.version.url);
  }
}

=== FILE: hashchecking.dfy ===
/**
 * `hash_check` (cache_handler.py): the shuffled work list is checked in
 * consecutive batches of UPDATE_FREQ files, with one progress message after
 * each batch.
 */
module HashChecking {
  import opened FileSystem
  import opened Tallies
  import opened Integrity

  /** The default of `update_freq`. */
  const UPDATE_FREQ: nat := 50

  function Min(a: nat, b: nat): nat { if a <= b then a else b }

  /** The tallies after the run and the snapshots sent as progress messages. */
  datatype Progress = Progress(sizes: SizeDict, messages: seq<SizeDict>)

  /** Checks `files[i:i+freq]` for i = 0, freq, 2*freq, ..., reporting after each batch. */
  function RunBatches(fs: Fs, sizes: SizeDict, files: seq<FileInfo>, freq: nat, digest: Digest): Progress
    requires freq > 0
    decreases |files|
  {
    if |files| == 0 then Progress(sizes, [])
    else
      var n := Min(freq, |files|);
      var s1 := CheckAll(fs, sizes, files[..n], digest);
      var rest := RunBatches(fs, s1, files[n..], freq, digest);
      Progress(rest.sizes, [s1] + rest.messages)
  }

  /** The number of batches is the ceiling of n / freq. */
  ghost predicate IsBatchCount(k: nat, n: nat, freq: nat) {
    if n == 0 then k == 0 else k > 0 && (k - 1) * freq < n <= k * freq
  }

  /** How many files the first k + 1 batches of `freq` cover out of `len`. */
  function Covered(k: nat, freq: nat, len: nat): (r: nat)
    ensures r <= len
  {
    var n := Min(freq, len);
    if k == 0 then n else n + Covered(k - 1, freq, len - n)
  }

  lemma {:induction false} CoveredIsMin(k: nat, freq: nat, len: nat)
    ensures Covered(k, freq, len) == Min((k + 1) * freq, len)
  {
    if k > 0 {
      CoveredIsMin(k - 1, freq, len - Min(freq, len));
      assert (k + 1) * freq == k * freq + freq;
    }
  }

  lemma BatchCountStep(m: nat, n: nat, freq: nat)
    requires freq > 0 && n > 0
    requires n <= freq ==> m == 0
    requires n > freq ==> IsBatchCount(m, n - freq, freq)
    ensures IsBatchCount(m + 1, n, freq)
  {
    if n > freq {
      assert (m + 1) * freq == m * freq + freq;
    }
  }

  /** The number of batches `RunBatches` makes. */
  function BatchCount(n: nat, freq: nat): (r: nat)
    requires freq > 0
    ensures IsBatchCount(r, n, freq)
    decreases n
  {
    if n == 0 then 0
    else
      var r := 1 + BatchCount(n - Min(freq, n), freq);
      BatchCountStep(r - 1, n, freq);
      r
  }

  /** Every file is checked exactly once, in list order. */
  lemma {:induction false} RunBatchesChecksAll(fs: Fs, sizes: SizeDict, files: seq<FileInfo>, freq: nat, digest: Digest)
    requires freq > 0
    ensures RunBatches(fs, sizes, files, freq, digest).sizes == CheckAll(fs, sizes, files, digest)
    decreases |files|
  {
    if |files| > 0 {
      var n := Min(freq, |files|);
      var s1 := CheckAll(fs, sizes, files[..n], digest);
      RunBatchesChecksAll(fs, s1, files[n..], freq, digest);
      CheckAllAppend(fs, sizes, files[..n], files[n..], digest);
      assert files[..n] + files[n..] == files;
    }
  }

  /** One progress message per batch: ceil(n / freq) of them. */
  lemma {:induction false} RunBatchesMessageCount(fs: Fs, sizes: SizeDict, files: seq<FileInfo>, freq: nat, digest: Digest)
    requires freq > 0
    ensures |RunBatches(fs, sizes, files, freq, digest).messages| == BatchCount(|files|, freq)
    decreases |files|
  {
    if |files| > 0 {
      var n := Min(freq, |files|);
      RunBatchesMessageCount(fs, CheckAll(fs, sizes, files[..n], digest), files[n..], freq, digest);
    }
  }

  /** There is a message iff there is a file, and the last message carries the final tallies. */
  lemma {:induction false} RunBatchesLast(fs: Fs, sizes: SizeDict, files: seq<FileInfo>, freq: nat, digest: Digest)
    requires freq > 0
    ensures var r := RunBatches(fs, sizes, files, freq, digest);
      && (|r.messages| == 0 <==> |files| == 0)
      && (|files| > 0 ==> r.messages[|r.messages| - 1] == r.sizes)
    decreases |files|
  {
    if |files| > 0 {
      var n := Min(freq, |files|);
      RunBatchesLast(fs, CheckAll(fs, sizes, files[..n], digest), files[n..], freq, digest);
    }
  }

  /** Message k is the state after the first k + 1 batches. */
  lemma {:induction false} RunBatchesSnapshots(fs: Fs, sizes: SizeDict, files: seq<FileInfo>, freq: nat, digest: Digest)
    requires freq > 0
    ensures var r := RunBatches(fs, sizes, files, freq, digest);
      forall k :: 0 <= k < |r.messages| ==>
        r.messages[k] == CheckAll(fs, sizes, files[..Covered(k, freq, |files|)], digest)
    decreases |files|
  {
    if |files| > 0 {
      var n := Min(freq, |files|);
      var s1 := CheckAll(fs, sizes, files[..n], digest);
      var tail := files[n..];
      var rest := RunBatches(fs, s1, tail, freq, digest);
      var r := RunBatches(fs, sizes, files, freq, digest);
      assert r.messages == [s1] + rest.messages;
      RunBatchesSnapshots(fs, s1, tail, freq, digest);
      forall k | 0 <= k < |r.messages|
        ensures r.messages[k] == CheckAll(fs, sizes, files[..Covered(k, freq, |files|)], digest)
      {
        if k == 0 {
          assert r.messages[0] == s1;
        } else {
          SnapshotStep(fs, sizes, files, freq, digest, k, rest.messages[k - 1]);
          assert r.messages[k] == rest.messages[k - 1];
        }
      }
    }
  }

  /** A snapshot after the first batch, seen from the whole list. */
  lemma SnapshotStep(fs: Fs, sizes: SizeDict, files: seq<FileInfo>, freq: nat, digest: Digest, k: nat, m: SizeDict)
    requires freq > 0 && |files| > 0 && k > 0
    requires var n := Min(freq, |files|);
      m == CheckAll(fs, CheckAll(fs, sizes, files[..n], digest), files[n..][..Covered(k - 1, freq, |files| - n)], digest)
    ensures m == CheckAll(fs, sizes, files[..Covered(k, freq, |files|)], digest)
  {
    var n := Min(freq, |files|);
    var tail := files[n..];
    var j := Covered(k - 1, freq, |tail|);
    assert Covered(k, freq, |files|) == n + j;
    CheckAllAppend(fs, sizes, files[..n], tail[..j], digest);
    assert j <= |tail|;
    assert files[..n] + tail[..j] == files[..n + j] by {
      assert |files[..n] + tail[..j]| == n + j;
      forall i | 0 <= i < n + j
        ensures (files[..n] + tail[..j])[i] == files[i]
      {
        if i >= n {
          assert tail[..j][i - n] == files[i];
        }
      }
    }
  }

  /** `hash_check` over the work list in the order the shuffle produced. */
  function HashCheck(fs: Fs, sizes: SizeDict, shuffled: seq<FileInfo>, digest: Digest): (r: Progress)
    ensures r.sizes == CheckAll(fs, sizes, shuffled, digest)
    ensures IsBatchCount(|r.messages|, |shuffled|, UPDATE_FREQ)
    ensures forall k :: 0 <= k < |r.messages| ==>
      r.messages[k] == CheckAll(fs, sizes, shuffled[..Min((k + 1) * UPDATE_FREQ, |shuffled|)], digest)
  {
    RunBatchesChecksAll(fs, sizes, shuffled, UPDATE_FREQ, digest);
    RunBatchesMessageCount(fs, sizes, shuffled, UPDATE_FREQ, digest);
    RunBatchesSnapshots(fs, sizes, shuffled, UPDATE_FREQ, digest);
    var r := RunBatches(fs, sizes, shuffled, UPDATE_FREQ, digest);
    assert forall k :: 0 <= k < |r.messages| ==> Covered(k, UPDATE_FREQ, |shuffled|) == Min((k + 1) * UPDATE_FREQ, |shuffled|) by {
      forall k | 0 <= k < |r.messages| {
        CoveredIsMin(k, UPDATE_FREQ, |shuffled|);
      }
    }
    r
  }

  /**
   * The shuffle changes neither the final tallies nor the number of messages:
   * any two orders of the same work list end in the same state.
   */
  lemma HashCheckShuffleInvariant(fs: Fs, sizes: SizeDict, a: seq<FileInfo>, b: seq<FileInfo>, digest: Digest)
    requires multiset(a) == multiset(b)
    ensures HashCheck(fs, sizes, a, digest).sizes == HashCheck(fs, sizes, b, digest).sizes
    ensures |HashCheck(fs, sizes, a, digest).messages| == |HashCheck(fs, sizes, b, digest).messages|
  {
    CheckAllOrderIndependent(fs, sizes, a, b, digest);
    assert |a| == |multiset(a)| == |b|;
    RunBatchesMessageCount(fs, sizes, a, UPDATE_FREQ, digest);
    RunBatchesMessageCount(fs, sizes, b, UPDATE_FREQ, digest);
  }
}

=== FILE: integrity.dfy ===
/**
 * `check_file_hash` (cache_handler.py): classify one file as intact or
 * altered and add its byte count to its tally; and the sequential fold of
 * it over a list of files, whose result does not depend on the order.
 */
module Integrity {
  import opened FileSystem
  import opened Tallies

  /** The read size of the hashing loop. */
  const BUF_SIZE: nat := 65536

  /** The lower-case hex SHA-256 of a byte string, left uninterpreted. */
  type Digest = seq<Byte> -> string

  /** A file's content matches the digest recorded for it. */
  predicate Intact(fs: Fs, f: FileInfo, digest: Digest) {
    Readable(fs, f.localPath) && digest(fs[f.localPath].content) == f.sha256
  }

  datatype Checked = Checked(intact: bool, sizes: SizeDict)

  /**
   * One call of `check_file_hash`. When the file cannot be opened nothing is
   * counted and the answer is False. When its tally is missing the lookup
   * raises after the verdict was taken; the handler swallows that and still
   * answers with the verdict.
   */
  function CheckFileHash(fs: Fs, sizes: SizeDict, f: FileInfo, digest: Digest): (r: Checked)
    ensures r.intact <==> Intact(fs, f, digest)
    ensures !Readable(fs, f.localPath) || KeyOf(f) !in sizes ==> r.sizes == sizes
    ensures Readable(fs, f.localPath) && KeyOf(f) in sizes ==>
      var k := KeyOf(f);
      && r.sizes.Keys == sizes.Keys
      && (forall k' :: k' in sizes && k' != k ==> r.sizes[k'] == sizes[k'])
      && r.sizes[k].total == sizes[k].total
      && r.sizes[k].intact + r.sizes[k].altered == sizes[k].intact + sizes[k].altered + |fs[f.localPath].content|
      && (r.intact ==> r.sizes[k].altered == sizes[k].altered)
      && (!r.intact ==> r.sizes[k].intact == sizes[k].intact)
  {
    if !Readable(fs, f.localPath) then Checked(false, sizes)
    else
      var data := fs[f.localPath].content;
      var intact := digest(data) == f.sha256;
      var k := KeyOf(f);
      if k in sizes then Checked(intact, sizes[k := Credit(sizes[k], intact, |data|)])
      else Checked(intact, sizes)
  }

  /** A check only ever adds to counters. */
  lemma CheckFileHashGrows(fs: Fs, sizes: SizeDict, f: FileInfo, digest: Digest)
    ensures Grows(sizes, CheckFileHash(fs, sizes, f, digest).sizes)
  {
  }

  /** The bytes one `read(BUF_SIZE)` returns from position `pos`. */
  function ReadAt(content: seq<Byte>, pos: nat): (r: seq<Byte>)
    requires pos <= |content|
    ensures |r| <= BUF_SIZE && pos + |r| <= |content|
    ensures |r| == 0 <==> pos == |content|
    ensures r == content[pos..pos + |r|]
  {
    if |content| - pos <= BUF_SIZE then content[pos..] else content[pos..pos + BUF_SIZE]
  }

  function Concat(chunks: seq<seq<Byte>>): seq<Byte>
  {
    if |chunks| == 0 then [] else Concat(chunks[..|chunks| - 1]) + chunks[|chunks| - 1]
  }

  /**
   * `check_file_hash` with its read loop: the file is consumed in chunks of at
   * most BUF_SIZE bytes, each fed to the hash object (whose state is the bytes
   * fed so far) and added to the byte count.
   */
  method CheckFileHashStreaming(fs: Fs, sizes: SizeDict, f: FileInfo, digest: Digest)
    returns (intact: bool, sizes': SizeDict, chunks: seq<seq<Byte>>)
    ensures Checked(intact, sizes') == CheckFileHash(fs, sizes, f, digest)
    ensures Readable(fs, f.localPath) ==> Concat(chunks) == fs[f.localPath].content
    ensures forall i :: 0 <= i < |chunks| ==> 0 < |chunks[i]| <= BUF_SIZE
  {
    chunks := [];
    if !Readable(fs, f.localPath) {
      return false, sizes, chunks;
    }
    var content := fs[f.localPath].content;
    var fed: seq<Byte> := [];
    var size: nat := 0;
    var pos: nat := 0;
    while true
      invariant pos <= |content|
      invariant fed == content[..pos] && size == pos
      invariant Concat(chunks) == fed
      invariant forall i :: 0 <= i < |chunks| ==> 0 < |chunks[i]| <= BUF_SIZE
      decreases |content| - pos
    {
      var data := ReadAt(content, pos);
      if |data| == 0 {
        break;
      }
      chunks := chunks + [data];
      fed := fed + data;
      size := size + |data|;
      pos := pos + |data|;
    }
    assert fed == content;
    intact := digest(fed) == f.sha256;
    var k := KeyOf(f);
    sizes' := sizes;
    if k in sizes {
      sizes' := sizes[k := Credit(sizes[k], intact, size)];
    }
  }

  /** Checking a list of files one after another. */
  function CheckAll(fs: Fs, sizes: SizeDict, files: seq<FileInfo>, digest: Digest): SizeDict
    decreases |files|
  {
    if |files| == 0 then sizes
    else CheckAll(fs, CheckFileHash(fs, sizes, files[0], digest).sizes, files[1..], digest)
  }

  /** Checking a whole list only ever adds to counters, like each single check. */
  lemma {:induction false} CheckAllGrows(fs: Fs, sizes: SizeDict, files: seq<FileInfo>, digest: Digest)
    ensures Grows(sizes, CheckAll(fs, sizes, files, digest))
    decreases |files|
  {
    if |files| > 0 {
      var s1 := CheckFileHash(fs, sizes, files[0], digest).sizes;
      CheckFileHashGrows(fs, sizes, files[0], digest);
      CheckAllGrows(fs, s1, files[1..], digest);
      GrowsTransitive(sizes, s1, CheckAll(fs, s1, files[1..], digest));
    }
  }

  /** Two checks against the same disk commute: each adds a fixed amount to one counter. */
  lemma CheckFileHashCommutes(fs: Fs, sizes: SizeDict, a: FileInfo, b: FileInfo, digest: Digest)
    ensures CheckFileHash(fs, CheckFileHash(fs, sizes, a, digest).sizes, b, digest).sizes
         == CheckFileHash(fs, CheckFileHash(fs, sizes, b, digest).sizes, a, digest).sizes
  {
    var ka, kb := KeyOf(a), KeyOf(b);
    if Readable(fs, a.localPath) && Readable(fs, b.localPath) && ka in sizes && kb in sizes {
      var ia := digest(fs[a.localPath].content) == a.sha256;
      var ib := digest(fs[b.localPath].content) == b.sha256;
      var na, nb := |fs[a.localPath].content|, |fs[b.localPath].content|;
      if ka == kb {
        assert Credit(Credit(sizes[ka], ia, na), ib, nb) == Credit(Credit(sizes[ka], ib, nb), ia, na);
      } else {
        assert sizes[ka := Credit(sizes[ka], ia, na)][kb := Credit(sizes[kb], ib, nb)]
            == sizes[kb := Credit(sizes[kb], ib, nb)][ka := Credit(sizes[ka], ia, na)];
      }
    }
  }

  /** Checking `e` in the middle of a list gives the same tallies as checking it first. */
  lemma {:induction false} CheckAllMoveToFront(fs: Fs, sizes: SizeDict, x: seq<FileInfo>, e: FileInfo, y: seq<FileInfo>, digest: Digest)
    ensures CheckAll(fs, sizes, x + [e] + y, digest)
         == CheckAll(fs, CheckFileHash(fs, sizes, e, digest).sizes, x + y, digest)
    decreases |x|
  {
    if |x| == 0 {
      assert x + [e] + y == [e] + y;
      assert ([e] + y)[1..] == y;
      assert x + y == y;
    } else {
      var h := x[0];
      var s1 := CheckFileHash(fs, sizes, h, digest).sizes;
      assert (x + [e] + y)[0] == h && (x + [e] + y)[1..] == x[1..] + [e] + y;
      CheckAllMoveToFront(fs, s1, x[1..], e, y, digest);
      CheckFileHashCommutes(fs, sizes, h, e, digest);
      assert (x + y)[0] == h && (x + y)[1..] == x[1..] + y;
    }
  }

  /**
   * `hash_check` shuffles its work list before running it: the final tallies
   * are the same for every order of the same files.
   */
  lemma {:induction false} CheckAllOrderIndependent(fs: Fs, sizes: SizeDict, a: seq<FileInfo>, b: seq<FileInfo>, digest: Digest)
    requires multiset(a) == multiset(b)
    ensures CheckAll(fs, sizes, a, digest) == CheckAll(fs, sizes, b, digest)
    decreases |a|
  {
    if |a| == 0 {
      assert |b| == |multiset(b)| == 0;
    } else {
      var e := a[0];
      assert e in multiset(b);
      var j :| 0 <= j < |b| && b[j] == e;
      var x, y := b[..j], b[j + 1..];
      RemoveOne(a, b, j);
      assert b == x + [e] + y;
      CheckAllMoveToFront(fs, sizes, x, e, y, digest);
      var s1 := CheckFileHash(fs, sizes, e, digest).sizes;
      CheckAllOrderIndependent(fs, s1, a[1..], x + y, digest);
    }
  }

  /** Taking the first element of `a` out of `b` at an index where it occurs. */
  lemma RemoveOne<T>(a: seq<T>, b: seq<T>, j: nat)
    requires multiset(a) == multiset(b) && |a| > 0 && j < |b| && b[j] == a[0]
    ensures multiset(a[1..]) == multiset(b[..j] + b[j + 1..])
  {
    assert a == [a[0]] + a[1..];
    assert multiset(a) == multiset{a[0]} + multiset(a[1..]);
    assert b == b[..j] + [b[j]] + b[j + 1..];
    assert multiset(b) == multiset(b[..j]) + multiset{b[j]} + multiset(b[j + 1..]);
    assert multiset(b[..j] + b[j + 1..]) == multiset(b[..j]) + multiset(b[j + 1..]);
    assert multiset(a[1..]) == multiset(a) - multiset{a[0]};
    assert multiset(b[..j] + b[j + 1..]) == multiset(b) - multiset{b[j]};
  }

  /** Checking `a + b` is checking `a`, then `b` from where `a` left the tallies. */
  lemma {:induction false} CheckAllAppend(fs: Fs, sizes: SizeDict, a: seq<FileInfo>, b: seq<FileInfo>, digest: Digest)
    ensures CheckAll(fs, sizes, a + b, digest) == CheckAll(fs, CheckAll(fs, sizes, a, digest), b, digest)
    decreases |a|
  {
    if |a| == 0 {
      assert a + b == b;
    } else {
      assert (a + b)[0] == a[0] && (a + b)[1..] == a[1..] + b;
      CheckAllAppend(fs, CheckFileHash(fs, sizes, a[0], digest).sizes, a[1..], b, digest);
    }
  }
}

=== FILE: removing.dfy ===
/**
 * `remove` (cache_handler.py): unlink every listed file, remembering the
 * parent directories, report once, then remove the remembered directories
 * that are empty, deepest first.
 */
module Removing {
  import opened Wrappers
  import opened FileSystem
  import opened Tallies

  /** The directories `remove` remembers: each listed file's parent that is a directory. */
  function Roots(fs: Fs, files: seq<FileInfo>): set<Path> {
    set f | f in files && IsDir(fs, Parent(f.localPath)) :: Parent(f.localPath)
  }

  /** The listed paths that are regular files, the ones `remove` unlinks. */
  function Listed(fs: Fs, files: seq<FileInfo>): set<Path> {
    set f | f in files && IsFile(fs, f.localPath) :: f.localPath
  }

  /** Some listed path is a regular file whose `unlink` raises `PermissionError`. */
  ghost predicate LockedFile(fs: Fs, files: seq<FileInfo>) {
    exists f :: f in files && IsFile(fs, f.localPath) && Locked(fs, f.localPath)
  }

  /** The first loop's outcome: the disk, the remembered directories, and whether an `unlink` raised. */
  datatype Unlinked = Unlinked(fs: Fs, roots: set<Path>, raised: bool)

  /**
   * The first loop of `remove`. The parent is looked at before the file is
   * unlinked; since only files are unlinked the answer is the one the
   * original disk gives. An `unlink` that raises ends the loop, and with it
   * the whole call.
   */
  function UnlinkFiles(fs: Fs, files: seq<FileInfo>): (r: Unlinked)
    ensures forall q :: q in r.fs ==> q in fs && r.fs[q] == fs[q]
    decreases |files|
  {
    if |files| == 0 then Unlinked(fs, {}, false)
    else
      var p := files[0].localPath;
      var root: set<Path> := if IsDir(fs, Parent(p)) then {Parent(p)} else {};
      if IsFile(fs, p) && Locked(fs, p) then Unlinked(fs, root, true)
      else
        var fs1 := if IsFile(fs, p) then Unlink(fs, p) else fs;
        var rest := UnlinkFiles(fs1, files[1..]);
        Unlinked(rest.fs, root + rest.roots, rest.raised)
  }

  /** Unlinking a removable file leaves every other listed file as removable or as locked as it was. */
  lemma UnlinkKeepsLocks(fs: Fs, p: Path, files: seq<FileInfo>)
    requires !(IsFile(fs, p) && Locked(fs, p))
    ensures var fs1 := if IsFile(fs, p) then Unlink(fs, p) else fs;
      LockedFile(fs1, files) <==> LockedFile(fs, files)
  {
    var fs1 := if IsFile(fs, p) then Unlink(fs, p) else fs;
    if LockedFile(fs, files) {
      var f :| f in files && IsFile(fs, f.localPath) && Locked(fs, f.localPath);
      assert f.localPath != p || !IsFile(fs, p);
      assert IsFile(fs1, f.localPath) && Locked(fs1, f.localPath);
    }
  }

  /** The first loop raises exactly when some listed regular file refuses to be unlinked. */
  lemma {:induction false} UnlinkFilesRaises(fs: Fs, files: seq<FileInfo>)
    ensures UnlinkFiles(fs, files).raised <==> LockedFile(fs, files)
    decreases |files|
  {
    if |files| > 0 {
      var p := files[0].localPath;
      if !(IsFile(fs, p) && Locked(fs, p)) {
        var fs1 := if IsFile(fs, p) then Unlink(fs, p) else fs;
        UnlinkFilesRaises(fs1, files[1..]);
        UnlinkKeepsLocks(fs, p, files[1..]);
        assert forall f :: f in files <==> f == files[0] || f in files[1..];
      }
    }
  }

  /**
   * The remembered directories are listed files' parents that are
   * directories on the original disk, and when the loop runs to the end
   * they are all of them.
   */
  lemma {:induction false} UnlinkFilesRoots(fs: Fs, files: seq<FileInfo>)
    ensures UnlinkFiles(fs, files).roots <= Roots(fs, files)
    ensures !UnlinkFiles(fs, files).raised ==> UnlinkFiles(fs, files).roots == Roots(fs, files)
    decreases |files|
  {
    if |files| > 0 {
      var p := files[0].localPath;
      assert forall f :: f in files <==> f == files[0] || f in files[1..];
      if !(IsFile(fs, p) && Locked(fs, p)) {
        var fs1 := if IsFile(fs, p) then Unlink(fs, p) else fs;
        assert forall q :: IsDir(fs1, q) <==> IsDir(fs, q);
        UnlinkFilesRoots(fs1, files[1..]);
        assert Roots(fs, files[1..]) == Roots(fs1, files[1..]);
      }
    }
  }

  /**
   * Only listed regular files disappear, every other entry stays, and when
   * the loop runs to the end every listed regular file is gone.
   */
  lemma {:induction false} UnlinkFilesRemoves(fs: Fs, files: seq<FileInfo>, q: Path)
    ensures q in fs && q !in Listed(fs, files) ==> q in UnlinkFiles(fs, files).fs
    ensures !UnlinkFiles(fs, files).raised && q in Listed(fs, files) ==> q !in UnlinkFiles(fs, files).fs
    decreases |files|
  {
    if |files| > 0 {
      var p := files[0].localPath;
      assert forall f :: f in files <==> f == files[0] || f in files[1..];
      assert q in Listed(fs, files) <==> (q == p && IsFile(fs, p)) || q in Listed(fs, files[1..]);
      if !(IsFile(fs, p) && Locked(fs, p)) {
        var fs1 := if IsFile(fs, p) then Unlink(fs, p) else fs;
        UnlinkFilesRemoves(fs1, files[1..], q);
        assert q in Listed(fs1, files[1..]) <==> q != p && q in Listed(fs, files[1..]);
      }
    }
  }

  /** After a first loop that ran to the end no listed path is a regular file and every remembered directory still exists. */
  lemma UnlinkFilesClears(fs: Fs, files: seq<FileInfo>)
    ensures var r := UnlinkFiles(fs, files);
      && (!r.raised ==> forall f :: f in files ==> !IsFile(r.fs, f.localPath))
      && (forall q :: q in r.roots ==> IsDir(r.fs, q))
  {
    var r := UnlinkFiles(fs, files);
    UnlinkFilesRoots(fs, files);
    if !r.raised {
      forall f | f in files
        ensures !IsFile(r.fs, f.localPath)
      {
        UnlinkFilesRemoves(fs, files, f.localPath);
        if IsFile(fs, f.localPath) {
          assert f.localPath in Listed(fs, files);
        }
      }
    }
    forall q | q in r.roots
      ensures IsDir(r.fs, q)
    {
      UnlinkFilesRemoves(fs, files, q);
    }
  }

  /** The first loop removes only regular files, so a well-formed tree stays well formed. */
  lemma UnlinkFilesWellFormed(fs: Fs, files: seq<FileInfo>)
    requires WellFormed(fs)
    ensures WellFormed(UnlinkFiles(fs, files).fs)
  {
    var u := UnlinkFiles(fs, files).fs;
    forall q | q in u && |q| >= 2
      ensures IsDir(u, q[..|q| - 1])
    {
      UnlinkFilesRemoves(fs, files, q[..|q| - 1]);
      assert IsDir(fs, q[..|q| - 1]);
      assert q[..|q| - 1] !in Listed(fs, files);
    }
  }

  /** No path occurs twice. */
  ghost predicate Distinct(s: seq<Path>) {
    forall i, j :: 0 <= i < j < |s| ==> s[i] != s[j]
  }

  /** Depth never increases along `s`. */
  ghost predicate DepthNonIncreasing(s: seq<Path>) {
    forall i, j :: 0 <= i < j < |s| ==> |s[j]| <= |s[i]|
  }

  /** An order `sorted(roots, key=lambda p: len(p.parts), reverse=True)` may produce. */
  ghost predicate DeepestFirst(order: seq<Path>, roots: set<Path>) {
    && DepthNonIncreasing(order)
    && Distinct(order)
    && (forall q :: q in order <==> q in roots)
  }

  /** The elements of `xs` of depth exactly `d`, in their order. */
  function AtDepth(xs: seq<Path>, d: nat): seq<Path>
    decreases |xs|
  {
    if |xs| == 0 then []
    else if |xs[0]| == d then [xs[0]] + AtDepth(xs[1..], d)
    else AtDepth(xs[1..], d)
  }

  lemma {:induction false} AtDepthMembers(xs: seq<Path>, d: nat)
    ensures forall q :: q in AtDepth(xs, d) <==> q in xs && |q| == d
    decreases |xs|
  {
    if |xs| > 0 {
      AtDepthMembers(xs[1..], d);
      assert forall q :: q in xs <==> q == xs[0] || q in xs[1..];
    }
  }

  lemma AtDepthLevel(xs: seq<Path>, d: nat)
    ensures forall i :: 0 <= i < |AtDepth(xs, d)| ==> |AtDepth(xs, d)[i]| == d
  {
    var a := AtDepth(xs, d);
    AtDepthMembers(xs, d);
    assert forall i :: 0 <= i < |a| ==> a[i] in a;
  }

  lemma {:induction false} AtDepthDistinct(xs: seq<Path>, d: nat)
    requires Distinct(xs)
    ensures Distinct(AtDepth(xs, d))
    decreases |xs|
  {
    if |xs| > 0 {
      AtDepthDistinct(xs[1..], d);
      var rest := AtDepth(xs[1..], d);
      if |xs[0]| == d {
        AtDepthMembers(xs[1..], d);
        var r := [xs[0]] + rest;
        forall i, j | 0 <= i < j < |r|
          ensures r[i] != r[j]
        {
          if i == 0 {
            assert r[j] == rest[j - 1] && rest[j - 1] in rest;
            var k :| 0 <= k < |xs[1..]| && xs[1..][k] == r[j];
            assert xs[k + 1] == r[j];
          } else {
            assert r[i] == rest[i - 1] && r[j] == rest[j - 1];
          }
        }
      }
    }
  }

  /** Bucket by depth, deepest bucket first, for the depths `d` down to 0. */
  function ByDepthFrom(xs: seq<Path>, d: nat): seq<Path>
    decreases d
  {
    if d == 0 then AtDepth(xs, 0) else AtDepth(xs, d) + ByDepthFrom(xs, d - 1)
  }

  lemma {:induction false} ByDepthFromMembers(xs: seq<Path>, d: nat)
    ensures forall q :: q in ByDepthFrom(xs, d) <==> q in xs && |q| <= d
    decreases d
  {
    AtDepthMembers(xs, d);
    if d > 0 {
      ByDepthFromMembers(xs, d - 1);
    }
  }

  lemma ByDepthFromLevel(xs: seq<Path>, d: nat)
    ensures forall i :: 0 <= i < |ByDepthFrom(xs, d)| ==> |ByDepthFrom(xs, d)[i]| <= d
  {
    var b := ByDepthFrom(xs, d);
    ByDepthFromMembers(xs, d);
    assert forall i :: 0 <= i < |b| ==> b[i] in b;
  }

  function MaxDepth(xs: seq<Path>): (r: nat)
    ensures forall q :: q in xs ==> |q| <= r
    decreases |xs|
  {
    if |xs| == 0 then 0
    else
      var m := MaxDepth(xs[1..]);
      assert forall q :: q in xs ==> q == xs[0] || q in xs[1..];
      if |xs[0]| > m then |xs[0]| else m
  }

  /** `sorted(roots, key=lambda p: len(p.parts), reverse=True)` of one enumeration `xs` of the set. */
  function SortDeepestFirst(xs: seq<Path>): (r: seq<Path>)
    ensures forall q :: q in r <==> q in xs
  {
    ByDepthFromMembers(xs, MaxDepth(xs));
    ByDepthFrom(xs, MaxDepth(xs))
  }

  /** One bucket of depth `d` followed by shallower, already ordered paths. */
  lemma AppendBucket(a: seq<Path>, b: seq<Path>, d: nat)
    requires forall i :: 0 <= i < |a| ==> |a[i]| == d
    requires forall i :: 0 <= i < |b| ==> |b[i]| < d
    requires Distinct(a) && Distinct(b) && DepthNonIncreasing(b)
    ensures Distinct(a + b) && DepthNonIncreasing(a + b)
  {
    var r := a + b;
    forall i, j | 0 <= i < j < |r|
      ensures |r[j]| <= |r[i]| && r[i] != r[j]
    {
      if j < |a| {
        assert r[i] == a[i] && r[j] == a[j];
      } else if i < |a| {
        assert r[i] == a[i] && r[j] == b[j - |a|];
      } else {
        assert r[i] == b[i - |a|] && r[j] == b[j - |a|];
      }
    }
  }

  lemma {:induction false} ByDepthFromSorted(xs: seq<Path>, d: nat)
    requires Distinct(xs)
    ensures DepthNonIncreasing(ByDepthFrom(xs, d)) && Distinct(ByDepthFrom(xs, d))
    decreases d
  {
    var a := AtDepth(xs, d);
    AtDepthDistinct(xs, d);
    AtDepthLevel(xs, d);
    if d > 0 {
      var b := ByDepthFrom(xs, d - 1);
      ByDepthFromSorted(xs, d - 1);
      ByDepthFromLevel(xs, d - 1);
      AppendBucket(a, b, d);
    }
  }

  /** The sort yields an order the pruning loop may receive: deepest first, each root once. */
  lemma SortDeepestFirstCorrect(xs: seq<Path>)
    requires Distinct(xs)
    ensures DeepestFirst(SortDeepestFirst(xs), set q | q in xs)
  {
    ByDepthFromSorted(xs, MaxDepth(xs));
    ByDepthFromMembers(xs, MaxDepth(xs));
  }

  /** The second loop's outcome: the disk and whether an `iterdir` or `rmdir` raised. */
  datatype Pruned = Pruned(fs: Fs, raised: bool)

  /**
   * The second loop of `remove`: `iterdir` raises on a path that is not a
   * directory any more, an empty directory is removed unless `rmdir` raises
   * `PermissionError`, and a non-empty one is kept.
   */
  function PruneDirs(fs: Fs, order: seq<Path>): (r: Pruned)
    ensures r.fs.Keys <= fs.Keys
    ensures forall q :: q in r.fs ==> r.fs[q] == fs[q]
    ensures forall q :: q in fs && q !in r.fs ==> q in order && IsDir(fs, q) && !Locked(fs, q)
    decreases |order|
  {
    if |order| == 0 then Pruned(fs, false)
    else
      var x := order[0];
      assert forall q :: q in order[1..] ==> q in order;
      if !IsDir(fs, x) then Pruned(fs, true)
      else if HasChild(fs, x) then PruneDirs(fs, order[1..])
      else if Locked(fs, x) then Pruned(fs, true)
      else PruneDirs(Rmdir(fs, x), order[1..])
  }

  /** What `PruneDirs` leaves for the rest of the order after its first turn, when that turn does not raise. */
  function AfterTurn(fs: Fs, x: Path): Fs
    requires IsDir(fs, x) && (HasChild(fs, x) || !Locked(fs, x))
  {
    if HasChild(fs, x) then fs else Rmdir(fs, x)
  }

  /** Removing directories never makes another remembered one stop being a directory, so only a locked root makes the loop raise. */
  lemma {:induction false} PruneDirsSucceeds(fs: Fs, order: seq<Path>)
    requires forall q :: q in order ==> IsDir(fs, q)
    requires Distinct(order)
    ensures PruneDirs(fs, order).raised ==> exists q :: q in order && Locked(fs, q)
    decreases |order|
  {
    if |order| > 0 {
      var x := order[0];
      if Locked(fs, x) {
        assert x in order;
      } else {
        var fs1 := AfterTurn(fs, x);
        forall q | q in order[1..]
          ensures IsDir(fs1, q)
        {
          var j :| 0 <= j < |order[1..]| && order[1..][j] == q;
          assert order[j + 1] == q && order[0] != order[j + 1] && q in order;
        }
        PruneDirsSucceeds(fs1, order[1..]);
        if PruneDirs(fs, order).raised {
          var q :| q in order[1..] && Locked(fs1, q);
          assert q in order && Locked(fs, q);
        }
      }
    }
  }

  /**
   * Deepest first means a directory kept for having a child keeps it: the
   * child is deeper than every directory still to come. So when the loop
   * does not raise no remembered directory is left empty, and one that was
   * empty is gone.
   */
  lemma {:induction false} PruneDirsLeavesNoEmptyRoot(fs: Fs, order: seq<Path>)
    requires DepthNonIncreasing(order)
    ensures var r := PruneDirs(fs, order);
      !r.raised ==> forall q :: q in order && q in r.fs ==> HasChild(r.fs, q)
    decreases |order|
  {
    var r := PruneDirs(fs, order);
    if |order| > 0 && !r.raised {
      var x := order[0];
      var fs1 := AfterTurn(fs, x);
      assert r == PruneDirs(fs1, order[1..]);
      PruneDirsLeavesNoEmptyRoot(fs1, order[1..]);
      if x in r.fs {
        PruneKeepsChild(fs, order);
      }
      forall q | q in order && q in r.fs
        ensures HasChild(r.fs, q)
      {
        if q != x {
          var j :| 0 <= j < |order| && order[j] == q;
          assert order[1..][j - 1] == q;
        }
      }
    }
  }

  /** A root that survives its own turn had a child, and that child, being deeper than every later root, survives too. */
  lemma PruneKeepsChild(fs: Fs, order: seq<Path>)
    requires |order| > 0 && !PruneDirs(fs, order).raised
    requires DepthNonIncreasing(order)
    requires order[0] in PruneDirs(fs, order).fs
    ensures HasChild(PruneDirs(fs, order).fs, order[0])
  {
    var x := order[0];
    var fs1 := AfterTurn(fs, x);
    var rest := order[1..];
    assert PruneDirs(fs, order) == PruneDirs(fs1, rest);
    assert x in fs1;
    assert HasChild(fs, x);
    var c :| c in fs && IsChild(c, x);
    assert c in fs1;
  }

  /** Pruning only removes empty directories, so a well-formed tree stays well formed. */
  lemma {:induction false} PruneDirsWellFormed(fs: Fs, order: seq<Path>)
    requires WellFormed(fs)
    ensures WellFormed(PruneDirs(fs, order).fs)
    decreases |order|
  {
    if |order| > 0 {
      var x := order[0];
      if IsDir(fs, x) && !HasChild(fs, x) && !Locked(fs, x) {
        RemoveLeafWellFormed(fs, x);
        assert Rmdir(fs, x) == fs - {x};
        PruneDirsWellFormed(Rmdir(fs, x), order[1..]);
      } else if IsDir(fs, x) && HasChild(fs, x) {
        PruneDirsWellFormed(fs, order[1..]);
      }
    }
  }

  /** What `remove` leaves: the disk, the messages sent, and whether it raised `PermissionError`. */
  datatype Removed = Removed(fs: Fs, messages: seq<SizeDict>, raised: bool)

  /**
   * `remove` with the remembered directories enumerated as `xs`: the
   * message between the two loops is sent exactly when the first loop does
   * not raise.
   */
  function Remove(fs: Fs, sizes: SizeDict, files: seq<FileInfo>, xs: seq<Path>): (r: Removed)
    requires forall q :: q in xs <==> q in Roots(fs, files)
    requires Distinct(xs)
    ensures r.messages == [] <==> LockedFile(fs, files)
    ensures r.messages != [] ==> r.messages == [sizes]
    ensures r.messages == [] ==> r.raised
  {
    var u := UnlinkFiles(fs, files);
    UnlinkFilesRaises(fs, files);
    if u.raised then Removed(u.fs, [], true)
    else
      var p := PruneDirs(u.fs, SortDeepestFirst(xs));
      Removed(p.fs, [sizes], p.raised)
  }

  /** When the first loop runs to the end the pruning loop receives every remembered directory once, deepest first, and each exists. */
  lemma RemovePrunes(fs: Fs, files: seq<FileInfo>, xs: seq<Path>)
    requires forall q :: q in xs <==> q in Roots(fs, files)
    requires Distinct(xs)
    ensures var u := UnlinkFiles(fs, files); var order := SortDeepestFirst(xs);
      !u.raised ==>
        && DeepestFirst(order, u.roots)
        && (forall q :: q in order ==> IsDir(u.fs, q))
        && (PruneDirs(u.fs, order).raised ==> exists q :: q in order && Locked(u.fs, q))
  {
    var u := UnlinkFiles(fs, files);
    if !u.raised {
      UnlinkFilesRoots(fs, files);
      UnlinkFilesClears(fs, files);
      var order := SortDeepestFirst(xs);
      SortDeepestFirstCorrect(xs);
      PruneDirsSucceeds(u.fs, order);
    }
  }

  /**
   * `remove` raises only when a listed file or a remembered directory
   * refuses removal; with every one of them removable it runs to the end
   * and sends its one message.
   */
  lemma RemoveRaises(fs: Fs, sizes: SizeDict, files: seq<FileInfo>, xs: seq<Path>)
    requires forall q :: q in xs <==> q in Roots(fs, files)
    requires Distinct(xs)
    ensures var r := Remove(fs, sizes, files, xs);
      r.raised ==> LockedFile(fs, files) || exists q :: q in Roots(fs, files) && Locked(fs, q)
    ensures var r := Remove(fs, sizes, files, xs);
      !LockedFile(fs, files) && (forall q :: q in Roots(fs, files) ==> !Locked(fs, q)) ==> !r.raised && r.messages == [sizes]
  {
    var r := Remove(fs, sizes, files, xs);
    var u := UnlinkFiles(fs, files);
    UnlinkFilesRaises(fs, files);
    RemovePrunes(fs, files, xs);
    if r.raised && !u.raised {
      var order := SortDeepestFirst(xs);
      SortDeepestFirstCorrect(xs);
      var q :| q in order && Locked(u.fs, q);
      assert q in xs && Locked(fs, q);
    }
  }

  /**
   * What `remove` leaves: only listed files and remembered directories
   * disappear and nothing else changes; when it does not raise, no listed
   * path is a regular file any more and every remembered directory still
   * there is non-empty.
   */
  lemma RemoveOutcome(fs: Fs, sizes: SizeDict, files: seq<FileInfo>, xs: seq<Path>)
    requires forall q :: q in xs <==> q in Roots(fs, files)
    requires Distinct(xs)
    ensures var r := Remove(fs, sizes, files, xs);
      && (!r.raised ==> forall f :: f in files ==> !IsFile(r.fs, f.localPath))
      && (!r.raised ==> forall q :: q in Roots(fs, files) && q in r.fs ==> HasChild(r.fs, q))
      && (forall q :: q in fs && q !in r.fs ==> q in Listed(fs, files) || q in Roots(fs, files))
      && (forall q :: q in r.fs ==> q in fs && r.fs[q] == fs[q])
  {
    var r := Remove(fs, sizes, files, xs);
    var u := UnlinkFiles(fs, files);
    var order := SortDeepestFirst(xs);
    RemovePrunes(fs, files, xs);
    UnlinkFilesRoots(fs, files);
    UnlinkFilesClears(fs, files);
    SortDeepestFirstCorrect(xs);
    PruneDirsLeavesNoEmptyRoot(u.fs, order);
    forall q | q in fs && q !in r.fs
      ensures q in Listed(fs, files) || q in Roots(fs, files)
    {
      UnlinkFilesRemoves(fs, files, q);
    }
  }

  /** `remove` keeps the tree well formed, whether or not it raises. */
  lemma RemoveWellFormed(fs: Fs, sizes: SizeDict, files: seq<FileInfo>, xs: seq<Path>)
    requires WellFormed(fs)
    requires forall q :: q in xs <==> q in Roots(fs, files)
    requires Distinct(xs)
    ensures WellFormed(Remove(fs, sizes, files, xs).fs)
  {
    var u := UnlinkFiles(fs, files);
    UnlinkFilesWellFormed(fs, files);
    PruneDirsWellFormed(u.fs, SortDeepestFirst(xs));
  }
}

=== FILE: servers.dfy ===
/**
 * The server list of the launcher page (`servers.json`) and the small
 * string helpers around it. A record's `endpoint` is absent unless the
 * file gives one; the page never sets it.
 */
module Servers {
  import opened Wrappers
  import opened Strings

  datatype Server = Server(uuid: string, description: string, ip: string, version: string, endpoint: Option<string>)

  /** An entry of `versions.json`: a game build and where its assets live. */
  datatype Version = Version(name: string, url: string)

  const DEFAULT_DESCRIPTION: string := "My OpenFusion Server"
  const DEFAULT_IP: string := "127.0.0.1:23000"

  /** The form value, or `fallback` when the input box was left empty. */
  function OrDefault(input: string, fallback: string): (r: string)
    ensures |input| == 0 ==> r == fallback
    ensures |input| > 0 ==> r == input
  {
    if |input| == 0 then fallback else input
  }

  /** `addServer` of the two later pages: a fresh uuid and defaults for empty inputs. */
  function AddServer(servers: seq<Server>, uuid: string, desc: string, ip: string, version: string): (r: seq<Server>)
    ensures |r| == |servers| + 1 && r[..|servers|] == servers
    ensures r[|servers|] == Server(uuid, OrDefault(desc, DEFAULT_DESCRIPTION), OrDefault(ip, DEFAULT_IP), version, None)
    ensures |r[|servers|].description| > 0 && |r[|servers|].ip| > 0
  {
    servers + [Server(uuid, OrDefault(desc, DEFAULT_DESCRIPTION), OrDefault(ip, DEFAULT_IP), version, None)]
  }

  /** `addServer` of the earliest page: the raw inputs, possibly empty. */
  function AddServerEarliest(servers: seq<Server>, uuid: string, desc: string, ip: string, version: string): (r: seq<Server>)
    ensures |r| == |servers| + 1 && r[..|servers|] == servers
    ensures r[|servers|] == Server(uuid, desc, ip, version, None)
  {
    servers + [Server(uuid, desc, ip, version, None)]
  }

  /** The edit of one record: empty inputs keep the old values, the version is always overwritten. */
  function Edited(s: Server, desc: string, ip: string, version: string): (r: Server)
    ensures r.uuid == s.uuid && r.endpoint == s.endpoint && r.version == version
    ensures |desc| > 0 ==> r.description == desc
    ensures |desc| == 0 ==> r.description == s.description
    ensures |ip| > 0 ==> r.ip == ip
    ensures |ip| == 0 ==> r.ip == s.ip
  {
    s.(description := OrDefault(desc, s.description), ip := OrDefault(ip, s.ip), version := version)
  }

  /** `editServer`: every record with the selected uuid is edited in place. */
  function EditServer(servers: seq<Server>, selected: string, desc: string, ip: string, version: string): (r: seq<Server>)
    ensures |r| == |servers|
    ensures forall i :: 0 <= i < |servers| && servers[i].uuid != selected ==> r[i] == servers[i]
    ensures forall i :: 0 <= i < |servers| && servers[i].uuid == selected ==>
      && r[i].uuid == selected && r[i].endpoint == servers[i].endpoint
      && r[i].version == version
      && r[i].description == (if |desc| == 0 then servers[i].description else desc)
      && r[i].ip == (if |ip| == 0 then servers[i].ip else ip)
    decreases |servers|
  {
    if |servers| == 0 then []
    else
      var head := if servers[0].uuid == selected then Edited(servers[0], desc, ip, version) else servers[0];
      var rest := EditServer(servers[1..], selected, desc, ip, version);
      assert forall i :: 1 <= i < |servers| ==> servers[i] == servers[1..][i - 1];
      [head] + rest
  }

  /** Applying the same edit twice is the same as applying it once. */
  lemma EditServerIdempotent(servers: seq<Server>, selected: string, desc: string, ip: string, version: string)
    ensures var once := EditServer(servers, selected, desc, ip, version);
      EditServer(once, selected, desc, ip, version) == once
  {
    var once := EditServer(servers, selected, desc, ip, version);
    var twice := EditServer(once, selected, desc, ip, version);
    assert forall i :: 0 <= i < |once| ==> twice[i] == once[i];
  }

  /** `Array.prototype.indexOf` of the first record with the uuid, -1 when there is none. */
  function IndexOfUuid(servers: seq<Server>, selected: string): (r: int)
    ensures -1 <= r < |servers|
    ensures r >= 0 ==> servers[r].uuid == selected
    decreases |servers|
  {
    if |servers| == 0 then -1
    else if servers[0].uuid == selected then 0
    else
      var k := IndexOfUuid(servers[1..], selected);
      if k == -1 then -1 else k + 1
  }

  /** The index is the first record with the uuid, and -1 exactly when no record has it. */
  lemma {:induction false} IndexOfUuidFirst(servers: seq<Server>, selected: string)
    ensures var r := IndexOfUuid(servers, selected);
      && (r == -1 <==> forall i :: 0 <= i < |servers| ==> servers[i].uuid != selected)
      && (r >= 0 ==> forall i :: 0 <= i < r ==> servers[i].uuid != selected)
    decreases |servers|
  {
    if |servers| > 0 && servers[0].uuid != selected {
      IndexOfUuidFirst(servers[1..], selected);
      assert forall i :: 1 <= i < |servers| ==> servers[i] == servers[1..][i - 1];
    }
  }

  /**
   * `deleteServer` (all three pages): `splice(indexOf(...), 1)` removes the
   * first record with the uuid; when none has it, `indexOf` yields -1 and
   * `splice(-1, 1)` counts from the end, removing the last record; an empty
   * list stays empty.
   */
  function DeleteServer(servers: seq<Server>, selected: string): (r: seq<Server>)
    ensures |servers| > 0 ==> |r| == |servers| - 1
    ensures |servers| == 0 ==> r == []
  {
    if |servers| == 0 then []
    else
      var i := IndexOfUuid(servers, selected);
      var k := if i < 0 then |servers| + i else i;
      servers[..k] + servers[k + 1..]
  }

  /** Which record the deletion removes: the first with the uuid, or else the last. */
  lemma DeleteServerRemoves(servers: seq<Server>, selected: string)
    ensures var i := IndexOfUuid(servers, selected);
      i >= 0 ==> DeleteServer(servers, selected) == servers[..i] + servers[i + 1..]
    ensures IndexOfUuid(servers, selected) == -1 && |servers| > 0 ==>
      DeleteServer(servers, selected) == servers[..|servers| - 1]
  {
    if |servers| > 0 {
      assert servers[|servers|..] == [];
      assert servers[..|servers| - 1] + [] == servers[..|servers| - 1];
    }
  }

  /** Deleting a record just added under a uuid no other record has gives back the list. */
  lemma DeleteUndoesAdd(servers: seq<Server>, uuid: string, desc: string, ip: string, version: string)
    requires forall i :: 0 <= i < |servers| ==> servers[i].uuid != uuid
    ensures DeleteServer(AddServer(servers, uuid, desc, ip, version), uuid) == servers
    ensures DeleteServer(AddServerEarliest(servers, uuid, desc, ip, version), uuid) == servers
  {
    var a := AddServer(servers, uuid, desc, ip, version);
    IndexOfUuidFirst(a, uuid);
    assert a[|servers|].uuid == uuid;
    assert a[..|servers|] == servers;
    var b := AddServerEarliest(servers, uuid, desc, ip, version);
    IndexOfUuidFirst(b, uuid);
    assert b[|servers|].uuid == uuid;
    assert b[..|servers|] == servers;
  }

  /** Deleting by a uuid no record has drops the last record, even one the user did not select. */
  lemma DeleteMissingDropsLast(servers: seq<Server>, selected: string)
    requires |servers| > 0
    requires forall i :: 0 <= i < |servers| ==> servers[i].uuid != selected
    ensures DeleteServer(servers, selected) == servers[..|servers| - 1]
  {
    IndexOfUuidFirst(servers, selected);
  }

  /** `getAppVersion`: a trailing ".0" is dropped ("1.4.0" becomes "1.4"), any other version is kept. */
  function GetAppVersion(v: string): (r: string)
    ensures EndsWith(v, ".0") ==> |r| == |v| - 2 && v == r + ".0"
    ensures !EndsWith(v, ".0") ==> r == v
  {
    if EndsWith(v, ".0") then v[..|v| - 2] else v
  }

  /** Dropping ".0" is undone by putting it back, and a version with a non-zero revision is left alone. */
  lemma GetAppVersionRoundTrip(v: string)
    ensures GetAppVersion(v + ".0") == v
    ensures |v| > 0 && v[|v| - 1] != '0' ==> GetAppVersion(v) == v
  {
    assert (v + ".0")[..|v|] == v;
  }
}

=== FILE: strings.dfy ===
/** The few string primitives the launcher relies on, with JavaScript's meaning. */
module Strings {

  predicate StartsWith(s: string, prefix: string) {
    |prefix| <= |s| && s[..|prefix|] == prefix
  }

  predicate EndsWith(s: string, suffix: string) {
    |suffix| <= |s| && s[|s| - |suffix|..] == suffix
  }

  /** `pat` occurs in `s` at position `i`. */
  predicate OccursAt(s: string, pat: string, i: int) {
    0 <= i && i + |pat| <= |s| && s[i..i + |pat|] == pat
  }

  /** `String.prototype.indexOf`: the first position of `pat` in `s`, or -1. */
  function IndexOf(s: string, pat: string): (r: int)
    ensures -1 <= r <= |s|
    ensures r == -1 <==> forall i :: 0 <= i <= |s| ==> !OccursAt(s, pat, i)
    ensures r != -1 ==> OccursAt(s, pat, r)
    ensures forall i :: 0 <= i < r ==> !OccursAt(s, pat, i)
    decreases |s|
  {
    if |pat| <= |s| && s[..|pat|] == pat then
      assert OccursAt(s, pat, 0);
      0
    else if |s| == 0 then -1
    else
      var k := IndexOf(s[1..], pat);
      ShiftOccurs(s, pat);
      assert !OccursAt(s, pat, 0);
      if k == -1 then -1
      else
        assert OccursAt(s, pat, k + 1);
        k + 1
  }

  /** An occurrence in the tail is an occurrence one further in the whole. */
  lemma ShiftOccurs(s: string, pat: string)
    requires |s| > 0
    ensures forall i :: 1 <= i ==> (OccursAt(s, pat, i) <==> OccursAt(s[1..], pat, i - 1))
  {
    forall i | 1 <= i
      ensures OccursAt(s, pat, i) <==> OccursAt(s[1..], pat, i - 1)
    {
      if i + |pat| <= |s| {
        assert s[1..][i - 1..i - 1 + |pat|] == s[i..i + |pat|];
      }
    }
  }

  /** `String.prototype.replace` with a string pattern: only the first occurrence changes. */
  function ReplaceFirst(s: string, pat: string, rep: string): (r: string)
    ensures IndexOf(s, pat) == -1 ==> r == s
    ensures IndexOf(s, pat) != -1 ==>
      var i := IndexOf(s, pat);
      r == s[..i] + rep + s[i + |pat|..]
  {
    var i := IndexOf(s, pat);
    if i == -1 then s else s[..i] + rep + s[i + |pat|..]
  }

  /** The characters the pattern `[0-9.]` accepts. */
  predicate IsDigitOrDot(c: char) {
    ('0' <= c <= '9') || c == '.'
  }

  /** The regular expression `^[0-9.]+$` matches `s`. */
  predicate MatchesDigitsAndDots(s: string)
    ensures MatchesDigitsAndDots(s) ==> |s| > 0 && ':' !in s && '/' !in s
  {
    |s| > 0 && forall i :: 0 <= i < |s| ==> IsDigitOrDot(s[i])
  }

  /** The part list of a `/`-separated path, empty segments dropped as pathlib does. */
  function PathParts(s: string): (r: seq<string>)
    ensures forall k :: 0 <= k < |r| ==> |r[k]| > 0 && '/' !in r[k]
    decreases |s|
  {
    var i := IndexOf(s, "/");
    if i == -1 then
      if |s| == 0 then []
      else
        assert '/' !in s by {
          forall j | 0 <= j < |s| ensures s[j] != '/' {
            assert !OccursAt(s, "/", j);
            assert s[j..j + 1] == [s[j]];
          }
        }
        [s]
    else
      assert OccursAt(s, "/", i);
      assert forall j :: 0 <= j < i ==> !OccursAt(s, "/", j);
      assert '/' !in s[..i] by {
        forall j | 0 <= j < i ensures s[..i][j] != '/' {
          assert !OccursAt(s, "/", j);
          assert s[j..j + 1] == [s[j]];
        }
      }
      var head := s[..i];
      var rest := PathParts(s[i + 1..]);
      if |head| == 0 then rest else [head] + rest
  }

  /** A relative path with no empty segment: no leading, trailing or doubled '/'. */
  predicate CleanPath(s: string) {
    && |s| > 0 && s[0] != '/' && s[|s| - 1] != '/'
    && forall i :: 0 <= i < |s| - 1 ==> !(s[i] == '/' && s[i + 1] == '/')
  }

  /** Without empty segments splitting loses nothing: joining the parts with '/' gives the path back. */
  lemma {:induction false} PathPartsJoin(s: string)
    requires CleanPath(s)
    ensures JoinWith(PathParts(s), "/") == s
    decreases |s|
  {
    var i := IndexOf(s, "/");
    if i == -1 {
      PathPartsWhole(s);
    } else {
      SeparatorAt(s, i);
      CleanPathTail(s, i);
      var t := s[i + 1..];
      PathPartsJoin(t);
      PathPartsCons(s, i);
      JoinCons(s[..i], PathParts(t), "/");
    }
  }

  /** A non-empty path without a separator is its own single part. */
  lemma PathPartsWhole(s: string)
    requires |s| > 0 && IndexOf(s, "/") == -1
    ensures PathParts(s) == [s]
  {
  }

  /** At a first separator with a non-empty head, the parts are the head followed by the parts of the rest. */
  lemma PathPartsCons(s: string, i: int)
    requires i == IndexOf(s, "/") && 0 < i < |s| - 1 && s[i + 1] != '/'
    ensures PathParts(s) == [s[..i]] + PathParts(s[i + 1..])
    ensures |PathParts(s[i + 1..])| > 0
  {
  }

  /** Joining a head onto a non-empty list puts one separator between them. */
  lemma JoinCons(h: string, rest: seq<string>, sep: string)
    requires |rest| > 0
    ensures JoinWith([h] + rest, sep) == h + sep + JoinWith(rest, sep)
  {
    assert ([h] + rest)[1..] == rest;
  }

  /** The first separator splits the path around one '/'. */
  lemma SeparatorAt(s: string, i: int)
    requires i == IndexOf(s, "/") && i != -1
    ensures 0 <= i < |s| && s[i] == '/' && s == s[..i] + "/" + s[i + 1..]
  {
    assert s[i..i + 1] == "/";
    SplitAround(s, i);
  }

  /** A string is its prefix, one character and its suffix. */
  lemma SplitAround(s: string, i: int)
    requires 0 <= i < |s|
    ensures s == s[..i] + [s[i]] + s[i + 1..]
  {
  }

  /** What follows a separator of a clean path is itself a clean path, and the separator is not at an end. */
  lemma CleanPathTail(s: string, i: int)
    requires CleanPath(s) && 0 <= i < |s| && s[i] == '/'
    ensures 0 < i < |s| - 1 && s[i + 1] != '/' && CleanPath(s[i + 1..])
  {
    var t := s[i + 1..];
    forall j | 0 <= j < |t| - 1
      ensures !(t[j] == '/' && t[j + 1] == '/')
    {
      assert t[j] == s[i + 1 + j];
    }
  }

  /** `array.join(sep)` on strings. */
  function JoinWith(parts: seq<string>, sep: string): string
  {
    if |parts| == 0 then ""
    else if |parts| == 1 then parts[0]
    else parts[0] + sep + JoinWith(parts[1..], sep)
  }
}

=== FILE: tallies.dfy ===
/** The per-(version, mode) byte tallies the cache handler reports to the launcher. */
module Tallies {
  import opened FileSystem

  /** The two caches a version can have: the live plugin cache and the pre-downloaded one. */
  datatype Mode = Offline | Playable

  /** The pair `size_dict[version][mode]` is indexed by. */
  datatype Key = Key(version: string, mode: Mode)

  datatype Tally = Tally(intact: nat, altered: nat, total: nat)

  /** `size_dict`, flattened from version -> mode -> tally to (version, mode) -> tally. */
  type SizeDict = map<Key, Tally>

  /** One manifest entry resolved to a download URL and a local path. */
  datatype FileInfo = FileInfo(version: string, mode: Mode, urlPath: string, localPath: Path, sha256: string)

  function KeyOf(f: FileInfo): Key { Key(f.version, f.mode) }

  /** Adds `n` bytes to the intact or to the altered counter. */
  function Credit(t: Tally, intact: bool, n: nat): (r: Tally)
    ensures r.total == t.total
    ensures r.intact + r.altered == t.intact + t.altered + n
    ensures intact ==> r.altered == t.altered
    ensures !intact ==> r.intact == t.intact
  {
    if intact then t.(intact := t.intact + n) else t.(altered := t.altered + n)
  }

  /** Counters only grow and totals stay fixed from `a` to `b`. */
  ghost predicate Grows(a: SizeDict, b: SizeDict) {
    && a.Keys == b.Keys
    && forall k :: k in a ==> b[k].total == a[k].total && a[k].intact <= b[k].intact && a[k].altered <= b[k].altered
  }

  lemma GrowsTransitive(a: SizeDict, b: SizeDict, c: SizeDict)
    requires Grows(a, b) && Grows(b, c)
    ensures Grows(a, c)
  {
  }
}

=== FILE: wrappers.dfy ===
/** Failure-carrying result types shared by the launcher model. */
module Wrappers {

  datatype Option<+T> = None | Some(value: T)

  /** Why a file-system or lookup step of the launcher raised. */
  datatype Error =
    | FileExists       // mkdir found a non-directory on the way
    | NotFound         // a directory to list vanished
    | PermissionDenied // unlink or rmdir refused
    | KeyMissing       // a dictionary lookup on a missing key
    | RenameFailed     // fs.renameSync refused
    | Undefined        // a property read on `undefined` in the launcher page

  datatype Result<+R> = Success(value: R) | Failure(error: Error) {
    predicate IsFailure() { Failure? }

    function PropagateFailure<U>(): Result<U>
      requires Failure?
    {
      Failure(error)
    }

    function Extract(): R
      requires Success?
    {
      value
    }
  }
}
